=== FILE: README.md ===
# coin-grid-stack: a verified model of the drag-to-merge core

coin-grid-stack is a tile puzzle. A bounded W×H grid holds coloured cells.
The player presses on a cell and drags, which builds a *stack*. The stack
absorbs the same-coloured cells it passes over, and a wall of other colours
blocks it. Releasing a stack of two or more cells plays a merge. When the
merge finishes, gravity runs: every column is compacted downwards and its
empty rows are topped up with freshly spawned cells. The model has seven
modules:

- `Optional`: the nullable-reference datatype.
- `Geometry`: `Vector3` over reals, with Unity's approximate `==` and clamped `Lerp`.
- `Cells`: the `CellData` record.
- `GridStore`: the `Grid2D` storage and the grid/world coordinate maps.
- `Gravity`: compaction, spawning, and the `CreateGrid`/`ClearGrid` setup commands.
- `Stacks`: the `Stack` component and its merge retirement schedule.
- `Input`: the `InputHandler` state machine, the interaction lock, and the world invariant.

A cell is a value `Cell(id, color, pos)`:

- `id` stands for the object's identity, so reference comparisons in the code are comparisons of ids.
- `color` is `Option<ColorId>`, because a `ColorData` reference may be null.
- `pos` is the recorded `GridPosition`.

The grid is a finite map from `Coord` to `Cell` together with its size, cell size and origin.

The central invariant is `Input.Inv`. It states exclusivity: every placed cell lies in exactly the slot it records, no cell is both placed and held, and identities not yet handed out are unused. `Input.StepKeepsInv` proves that every event preserves `Inv`. The events are a pointer frame, a cancel request, a merge completion and the delayed release of the interaction lock.

Exclusivity does not say that no cell goes missing. That is stated separately. `Input.Live` is the set of identities that are placed or held. `Input.StepAccounts` proves that on every loss-free event (`Input.LossFree`) each live identity stays live, unless a released stack hands it to the merge. The only newcomers are fresh spawned identities. The code does lose cells on four paths, and a lemma exhibits each one:

- a second press while dragging (`Input.SecondPressAbandonsStack`);
- a one-cell release over an occupied slot (`Input.ReleaseOverwritesOccupant`), and a later press on the displaced cell (`Input.PressOnDisplacedCell`);
- a cancel over a slot refilled mid-drag (`Input.CancelOverwritesOccupant`);
- a cancel with two held cells recording one slot (`Input.CancelOverwritesSharedSlot`).

Gravity is proved to keep the order within each column: `Gravity.CompactKeepsColumnOrder`. The proof does not depend on the stability of the row sort: `List.Sort` is unstable, so the sort's outcome is an input, and every row-sorted permutation gives the same grid.

## Model

| member | source | states |
|---|---|---|
| Cells.Initialize | Assets/Scripts/CellData.cs:30-40 | the cell keeps its identity and takes exactly the given colour and grid position |
| Cells.SetColorData | Assets/Scripts/CellData.cs:45-53 | only the colour changes; identity and recorded grid position are kept |
| Geometry.LerpAxis | Assets/Scripts/Stack.cs:77 | a clamped interpolation lands between the old value and the target and no farther from the target |
| Geometry.LerpApproaches | Assets/Scripts/Stack.cs:77 | Vector3.Lerp lands on the segment from the old position to the target, between them and no farther from the target on every axis, at the target once t >= 1 and unmoved while t <= 0 |
| GridStore.GridPosition | Assets/Scripts/Grid2D.cs:42-54 | for any world point, the clamp yields a coordinate in [0,W-1]×[0,H-1] |
| GridStore.WorldPosition | Assets/Scripts/Grid2D.cs:24-40 | computes GetWorldPosition with no contract of its own; GridStore.RoundTrip states that the world point of an in-bounds slot resolves back to that slot |
| GridStore.RoundTrip | Assets/Scripts/Grid2D.cs:24-54 | for every in-bounds (x,y) and either snap mode, GetGridPosition(GetWorldPosition(x,y)) is (x,y) |
| GridStore.SnapIdempotent | Assets/Scripts/Grid2D.cs:24-54 | snapping keeps the slot a point resolves to, and snapping twice equals snapping once |
| GridStore.BeyondRightEdgeClampsToLastColumn | Assets/Scripts/Grid2D.cs:48-53 | any point right of the grid's right edge resolves to the last column |
| GridStore.RemoveAt | Assets/Scripts/Grid2D.cs:69-75 | out of bounds is a no-op; otherwise exactly slot (x,y) becomes empty and every other slot is unchanged |
| GridStore.RemoveCell | Assets/Scripts/Grid2D.cs:80-85 | a null cell is a no-op; otherwise the slot the cell records is emptied and no other slot changes |
| GridStore.AddCell | Assets/Scripts/Grid2D.cs:90-98 | a null cell or out-of-range slot changes nothing; otherwise slot (x,y) holds the cell, now recording (x,y), and all other slots are unchanged |
| GridStore.GetCellAt | Assets/Scripts/Grid2D.cs:59-64 | looks a slot up with no contract of its own; GridStore.GetAfterAdd states that it returns the cell just added there, and null once it is removed |
| GridStore.GetAfterAdd | Assets/Scripts/Grid2D.cs:59-98 | GetCellAt right after AddCell returns the added cell; after removing it again, null |
| GridStore.AddThenRemove | Assets/Scripts/Grid2D.cs:69-98 | adding into an empty slot and removing it again restores the grid |
| GridStore.RemoveThenRestore | Assets/Scripts/Grid2D.cs:80-98 | removing a placed cell leaves its recorded position intact, so re-adding it there restores the grid exactly |
| GridStore.RemoveKeepsConsistent | Assets/Scripts/Grid2D.cs:69-75 | removal keeps placement bookkeeping and removes exactly the removed cell's identity |
| GridStore.AddKeepsConsistent | Assets/Scripts/Grid2D.cs:90-98 | adding a cell placed nowhere keeps every cell in one slot that it records, and adds only that identity |
| Gravity.Cleared | Assets/Scripts/Grid2D.cs:125-137 | the removal phase empties every in-bounds slot and nothing else changes |
| Gravity.FindLowestEmpty | Assets/Scripts/Grid2D.cs:173-181 | the answer is the first empty row scanning upwards (all rows below occupied), or -1 exactly when the column is full |
| Gravity.CompactKeepsColumnOrder | Assets/Scripts/Grid2D.cs:120-158 | each column's cells end at rows 0..k-1 in their original bottom-to-top order, none changes column, higher rows are empty, for any tie order of the unstable sort |
| Gravity.NeverFull | Assets/Scripts/Grid2D.cs:143-158 | FindLowestEmptyPosition never answers -1 while the sorted cells are re-added |
| Gravity.CompactedConsistent | Assets/Scripts/Grid2D.cs:120-158 | compaction keeps every cell in exactly one slot that it records and holds exactly the same cells |
| Gravity.PaletteColor | Assets/Scripts/Grid2D.cs:231 | a random pick from a non-empty palette is one of the palette's colours |
| Gravity.SpawnNewCells | Assets/Scripts/Grid2D.cs:186-239 | the spawning phase, with no contract of its own; Gravity.SpawnPhase and Gravity.PopulateFills state that it fills the empty slots with fresh cells and disturbs no placed one |
| Gravity.PopulateFills | Assets/Scripts/Grid2D.cs:194-239 | every listed in-range slot ends occupied, by its previous cell or by a fresh identity of the picked colour; other slots are left alone and, when only empty slots are filled, no cell is displaced |
| Gravity.UpdatePositions | Assets/Scripts/Grid2D.cs:103-118 | compaction then spawning, with no contract of its own; Gravity.UpdatePositionsSettles states what it leaves |
| Gravity.UpdatePositionsSettles | Assets/Scripts/Grid2D.cs:103-239 | after gravity the old column cells sit compacted, spawned cells only above them; with prefab and palette every slot is occupied, without them the rows above stay empty; no cell is lost |
| Gravity.ClearGridEmpties | Assets/Scripts/Grid2D.cs:288-308 | ClearGrid leaves no cell in the grid |
| Gravity.CreateGrid | Assets/Scripts/Grid2D.cs:245-285 | builds the starting grid with no contract of its own; Gravity.CreateGridFills states what it builds |
| Gravity.CreateGridFills | Assets/Scripts/Grid2D.cs:245-285 | without a prefab the grid ends empty; with one every slot holds a fresh cell, palette-coloured when a palette exists |
| Stacks.AddCell | Assets/Scripts/Stack.cs:46-69 | the stack grows by exactly the appended cell iff CanAddCell holds, target colour unchanged, colour invariant preserved |
| Stacks.CanAddCell | Assets/Scripts/Stack.cs:83-88 | the acceptance test, with no contract of its own; Stacks.CanAddAgreesWithAdd states that it agrees with what AddCell does |
| Stacks.CanAddAgreesWithAdd | Assets/Scripts/Stack.cs:83-88 | CanAddCell is true exactly when AddCell would append the cell, and false leaves the stack unchanged |
| Stacks.NewestSlot | Assets/Scripts/Stack.cs:57-63 | a successful AddCell puts the cell last, at stacking slot Count-1, and keeps the cells already held in order below it |
| Stacks.Initialize | Assets/Scripts/Stack.cs:30-41 | a null first cell is a no-op; otherwise Cells is [first], TargetColor its colour, and the colour invariant holds |
| Stacks.Clear | Assets/Scripts/Stack.cs:150-154 | Cells empty and TargetColor null; any non-null cell is then accepted |
| Stacks.ClearAcceptsAnyCell | Assets/Scripts/Stack.cs:83-88 | after Clear, CanAddCell is true exactly for non-null cells, and adding one gives a one-cell stack |
| Stacks.UpdatePosition | Assets/Scripts/Stack.cs:74-78 | the new position lies on the segment between the old position and the target and is no farther from the target on any axis; at the target once speed·dt >= 1, unmoved while speed·dt <= 0; cells and colour unchanged |
| Stacks.MergeSchedule | Assets/Scripts/Stack.cs:93-146 | the retirement schedule, with no contract of its own; Stacks.MergeOrder states its order, offsets and completion |
| Stacks.MergeOrder | Assets/Scripts/Stack.cs:93-145 | cells retire in reverse insertion order, the newest at offset 0 and each next one exactly 0.081 s later (cells[i] at (Count-1-i)·0.081); completion fires exactly once, last, and immediately on an empty stack |
| Stacks.ScheduleShape | Assets/Scripts/Stack.cs:93-145 | the merge retires exactly the held cells, newest first, and fires completion once, as the last step |
| Stacks.RetirementOffsets | Assets/Scripts/Stack.cs:132 | the insert times start at 0 for the newest cell, rise strictly by exactly 0.081 s per cell, and place cells[i] at (Count-1-i)·0.081 |
| Input.MoveDirection | Assets/Scripts/InputHandler.cs:110-126 | the step is zero or a unit step on one axis, never diagonal; zero iff both deltas are within 0.01; the strictly larger axis wins, with the delta's sign |
| Input.TiesGoVertical | Assets/Scripts/InputHandler.cs:116-125 | equal horizontal and vertical deltas step vertically |
| Input.CanMoveToPosition | Assets/Scripts/InputHandler.cs:181-206 | false without a stack or target colour or out of bounds; true for an empty slot; for an occupied slot, true iff its colour is the target |
| Input.CanMoveMeansAbsorbable | Assets/Scripts/InputHandler.cs:181-206 | an allowed step lands in bounds, on an empty slot or a cell the stack would accept |
| Input.AllowedPosition | Assets/Scripts/InputHandler.cs:133-151 | the pointer when there is no step or the step is allowed, otherwise the centre of the current slot |
| Input.BlockedStalls | Assets/Scripts/InputHandler.cs:133-151 | a stack sent anywhere but the pointer was blocked and stays over the slot it is in |
| Input.SameSlotFollowsPointer | Assets/Scripts/InputHandler.cs:104-150 | a pointer resolving to the stack's own slot yields no step and is followed freely |
| Input.RightEdgeDoesNotStall | Assets/Scripts/InputHandler.cs:104-150 | a stack centred on a slot of the last column follows a pointer level with it at any distance beyond the right edge |
| Input.StartDrag | Assets/Scripts/InputHandler.cs:69-89 | no hit, no change; a hit cell leaves the grid and becomes the single cell of a new stack of its colour |
| Input.Absorb | Assets/Scripts/InputHandler.cs:158-175 | an acceptable new hovered cell is removed from the grid and appended as last hovered; otherwise only the stack moves |
| Input.Drag | Assets/Scripts/InputHandler.cs:91-176 | OnDragging, with no contract of its own; Input.DragAbsorbs, Input.DragKeepsInv and Input.DragConserves state what a tick does |
| Input.DragAbsorbs | Assets/Scripts/InputHandler.cs:91-176 | a drag tick absorbs the hovered cell iff it is non-null, differs from the last hovered cell and CanAddCell holds; it then leaves the grid |
| Input.HoveredIsPlaced | Assets/Scripts/InputHandler.cs:158-159 | the cell found under the allowed position is placed in the slot it records |
| Input.ZeroAimIgnored | Assets/Scripts/InputHandler.cs:97 | a tick whose projected point is zero does nothing |
| Input.EndDrag | Assets/Scripts/InputHandler.cs:235-268 | afterwards the handler is Idle with no stack |
| Input.EndDragThreshold | Assets/Scripts/InputHandler.cs:242-265 | two or more cells start a merge and leave the grid alone; one cell returns to its recorded slot |
| Input.SingleCellDragRestores | Assets/Scripts/InputHandler.cs:69-89 | pressing a cell and releasing without absorbing gives back exactly the original grid |
| Input.CancelDrag | Assets/Scripts/InputHandler.cs:296-317 | afterwards the handler is Idle with no stack and no hovered cell |
| Input.RestoreAllConsistent | Assets/Scripts/InputHandler.cs:301-309 | re-adding held cells keeps the placement bookkeeping and adds only their identities |
| Input.RestoreAllFrame | Assets/Scripts/InputHandler.cs:301-309 | re-adding held cells touches only the slots they record |
| Input.RestoreAllPlaces | Assets/Scripts/InputHandler.cs:301-309 | each held cell is found at its recorded slot again when those slots differ |
| Input.CancelRestores | Assets/Scripts/InputHandler.cs:296-317 | when the held cells record distinct slots, cancelling hands every held cell back to its recorded slot and leaves a consistent grid |
| Input.ResolveGravity | Assets/Scripts/Grid2D.cs:103-167 | the merge callback closes the interaction lock and schedules exactly one delayed release |
| Input.HandleInput | Assets/Scripts/InputHandler.cs:52-67 | the press/hold/release dispatch, with no contract of its own; Input.StepKeepsInv and Input.StepAccounts state what each branch keeps |
| Input.Step | Assets/Scripts/InputHandler.cs:45-50 | one event, with no contract of its own; Input.LockedFramesInert, Input.LockDiscipline, Input.StepKeepsInv and Input.StepAccounts state what it keeps |
| Input.LockedFramesInert | Assets/Scripts/InputHandler.cs:45-50 | while CanInteract is false no frame changes anything |
| Input.LockDiscipline | Assets/Scripts/Grid2D.cs:164-167 | a finished merge closes the lock, and only the delayed release reopens it |
| Input.GravityOnlyOnMerge | Assets/Scripts/InputHandler.cs:243-250 | gravity runs only when a pending merge completes, consuming exactly that merge |
| Input.StartDragKeepsInv | Assets/Scripts/InputHandler.cs:69-89 | pressing a cell whose collider is on (placed, or displaced and placed nowhere) keeps exclusivity (`Inv`): no cell both placed and held, each placed cell in the one slot it records; that nothing is lost holds only for a press while Idle on a placed cell (Input.StartDragConserves) |
| Input.DragKeepsInv | Assets/Scripts/InputHandler.cs:158-175 | a drag tick keeps exclusivity (`Inv`) and the stack single-coloured; that nothing is lost is Input.DragConserves |
| Input.EndDragKeepsInv | Assets/Scripts/InputHandler.cs:235-268 | release keeps the placement invariant |
| Input.CancelKeepsInv | Assets/Scripts/InputHandler.cs:296-317 | cancel keeps the placement invariant |
| Input.ResolveKeepsInv | Assets/Scripts/Grid2D.cs:103-239 | gravity keeps the placement invariant, including for cells held by a drag in progress |
| Input.StepKeepsInv | Assets/Scripts/InputHandler.cs:45-317 | every event keeps exclusivity: each placed cell in exactly the slot it records, no cell both placed and held |
| Input.StartDragConserves | Assets/Scripts/InputHandler.cs:69-89 | a press on a placed cell while Idle moves it from the grid to the new stack; the placed-or-held identities are unchanged |
| Input.DragConserves | Assets/Scripts/InputHandler.cs:158-175 | absorption moves a cell from the grid onto the stack; the placed-or-held identities are unchanged |
| Input.EndDragAccounts | Assets/Scripts/InputHandler.cs:242-265 | releasing two or more cells hands exactly the stack's identities to the merge; releasing one over an empty slot loses nothing |
| Input.CancelConserves | Assets/Scripts/InputHandler.cs:296-317 | cancelling a stack whose cells record distinct, empty slots loses no identity |
| Input.ResolveAccounts | Assets/Scripts/Grid2D.cs:103-239 | gravity loses no placed-or-held identity, and every new one is fresh |
| Input.StepAccounts | Assets/Scripts/InputHandler.cs:45-317 | on a loss-free event every placed-or-held identity stays so unless handed to the merge, handed-over ones are gone, and newcomers are fresh |
| Input.SecondPressAbandonsStack | Assets/Scripts/InputHandler.cs:55-89 | a press while dragging leaves the old stack's cells neither placed nor held |
| Input.LastHoveredNeverPlaced | Assets/Scripts/InputHandler.cs:162 | under the invariant a hovered grid cell is never the last hovered cell, so that test never rejects |
| Input.MergeDuringDragFillsHeldSlots | Assets/Scripts/Grid2D.cs:186-208 | a merge finishing during a later drag fills the slots the held cells record with other cells |
| Input.ReleaseOverwritesOccupant | Assets/Scripts/InputHandler.cs:255-260 | releasing a one-cell stack over an occupied slot displaces the occupant, which is then neither placed nor held |
| Input.PressOnDisplacedCell | Assets/Scripts/Grid2D.cs:80-85 | the displaced occupant stays pressable; pressing it empties the slot it records, so the released cell is then neither placed nor held |
| Input.CancelOverwritesOccupant | Assets/Scripts/InputHandler.cs:301-309 | cancelling over a slot refilled mid-drag leaves the occupant neither placed nor held |
| Input.AbsorbSharesSlot | Assets/Scripts/InputHandler.cs:91-176 | after a merge finishes mid-drag, the refill of a held cell's slot is a placed cell the stack does not hold; with the stack and the pointer over that slot, the next drag tick hovers it and absorbs it exactly when the stack accepts its colour, and then two held cells record one slot |
| Input.CancelOverwritesSharedSlot | Assets/Scripts/InputHandler.cs:301-309 | cancelling with two held cells recording one slot leaves the earlier one neither placed nor held |

## Left out

- Rendering: materials and `ColorizeSprites`. These have no effect on colour or grid position, so a cell value carries none of them. Collider enabling and disabling is not state of the model either; its one effect, which cells the hit test can return, is stated by `Input.Pressable`. `AnimateToPosition`, DOTween and coroutine timing are left out for the same reason. The merge schedule keeps only its order and the 0.081 s start offsets.
- The camera and physics work in `GetCellAtScreenPosition` and `GetWorldPositionFromScreen` is not modelled. A frame carries the hit cell, its world position and the projected pointer. The model assumes the hit test returns a cell whose collider is on: a placed cell, or one displaced by a release and placed nowhere (`Input.Pressable`).
- The base class `GridSystem2D` is not part of this model. Its storage is taken to be a bounds-checked map, and `SnapWorldPosition` is taken to be `GetWorldPosition(GetGridPosition(p), true)`.
- `Random.Range` is a parameter `roll` per slot. `List.Sort` is a parameter, an arbitrary row-sorted permutation. `Time.deltaTime` is a parameter `dt`.
- IEEE float rounding: all geometry is over exact reals.
- `GridPosition`: the grid size is a `nat`, and the cell size must be non-zero. A negative grid size or a zero cell size cannot be expressed.
- `HashSet` iteration order of the columns is not modelled. Columns are independent, so the order does not matter.
- Editor tooling is left out: `RandomizeColorsGrid`, `SetDirty`, the editor button drawer, and UI, scene and camera scripts.
- Stack object lifetime. `Stack.AddCell` parents each held cell to the stack's transform (Stack.cs:60). `Grid2D.AddCell` does not parent it back (Grid2D.cs:96-97). `OnDragEnd` and `CancelDrag` then destroy the stack object (InputHandler.cs:264, 311), and in Unity that also destroys its children, unless `AddGridObject` in `GridSystem2D`, which is not part of this model, reparents them. The model assumes that it does, so a cell handed back survives. `Input.SingleCellDragRestores`, `Input.CancelRestores` and `Input.CancelConserves` rest on that assumption.
- `Stack.Clear` is modelled but nothing calls it. `Count` and `TargetColor` are the sequence length and the `target` field.
- Input.StepKeepsInv: states exclusivity only. That no cell goes missing is `Input.StepAccounts`, which requires `Input.LossFree`; on the other events the code loses cells, as the four loss-path lemmas above show.
- Input.CancelRestores: requires that the held cells record distinct slots, and `Input.Inv` does not imply that. A merge that finishes mid-drag refills a held cell's slot (`Input.MergeDuringDragFillsHeldSlots`), a same-coloured refill can be absorbed (`Input.AbsorbSharesSlot`), and cancel then loses the earlier cell (`Input.CancelOverwritesSharedSlot`).
- `Stacks.SameColour`: it holds only when the first cell has a colour. With a null first colour the target is null and `AddCell` accepts any colour, as the code does.

## Behaviour worth noting

In each of these points the model follows what the code does:

- **Absorption probe.** Absorption looks up the cell at `GetGridPosition(allowedWorldPos)`, not at the smoothed stack position.
- **Edge behaviour.** Both snapped positions clamp to the same edge slot, so an off-grid pointer gives a zero step and free movement. The stack then follows the pointer beyond the grid edge (`Input.RightEdgeDoesNotStall`); it is not held at the edge.
- **Second press while dragging.** `OnDragStart` does not check `isDragging`. A second press replaces the stack, and the old stack's cells are neither placed nor held (`Input.SecondPressAbandonsStack`).
- **Approximate zero check.** `desiredWorldPos == Vector3.zero` uses Unity's approximate equality, not an exact zero test.
- **Lock timing.** The interaction lock is closed only once a merge finishes, not while the merge plays. A merge can therefore finish in the middle of a later drag, and gravity then refills the held cells' slots (`Input.MergeDuringDragFillsHeldSlots`). A one-cell release afterwards displaces the spawned occupant (`Input.ReleaseOverwritesOccupant`), and a cancel overwrites it (`Input.CancelOverwritesOccupant`). The displaced cell is then neither placed nor held.
- **Displaced cells stay pressable.** The displaced occupant keeps its collider on. Pressing it removes the cell at the slot it records, which is now the released cell, so the released cell is then neither placed nor held (`Input.PressOnDisplacedCell`). Exclusivity still holds throughout.

=== FILE: cells.dfy ===
/**
 The cell record (CellData): an object identity, a possibly-null colour
 reference and the grid position the cell last recorded.

 Initialize and SetColorData model CellData's two mutators on their own. The
 rest of the model builds cells directly: a spawned cell is written
 Cell(fresh id, picked colour, slot), which is what Initialize gives a fresh
 prefab instance, and SetColorData's only caller, RandomizeColorsGrid, is
 editor tooling outside this model.
 */
module Cells {
  import opened Optional

  /** A colour asset (ColorData); assets are compared by identity only. */
  type ColorId = nat

  /** A possibly-null reference to a colour asset, as CellData.ColorData is. */
  type ColorRef = Option<ColorId>

  /** Vector2Int */
  datatype Coord = Coord(x: int, y: int)

  /** `id` stands for the object's identity: two cells are the same object exactly when their ids agree. */
  datatype Cell = Cell(id: nat, color: ColorRef, pos: Coord)

  /** CellData.Initialize: assigns colour and grid position together. */
  function Initialize(c: Cell, color: ColorRef, position: Coord): (r: Cell)
    ensures r.id == c.id && r.color == color && r.pos == position
  {
    c.(color := color, pos := position)
  }

  /** CellData.SetColorData: recolours the cell and nothing else. */
  function SetColorData(c: Cell, color: ColorRef): (r: Cell)
    ensures r.id == c.id && r.color == color && r.pos == c.pos
  {
    c.(color := color)
  }
}

=== FILE: geometry.dfy ===
/**
 World-space vectors over the reals, standing in for Unity's Vector3, with the
 two library operations the core relies on: approximate equality and Lerp.
 */
module Geometry {

  datatype Vec3 = Vec3(x: real, y: real, z: real)

  /** Vector3.zero */
  const Origin: Vec3 := Vec3(0.0, 0.0, 0.0)

  function Minus(a: Vec3, b: Vec3): Vec3 {
    Vec3(a.x - b.x, a.y - b.y, a.z - b.z)
  }

  function Abs(r: real): real {
    if r < 0.0 then -r else r
  }

  function SqrMagnitude(v: Vec3): real {
    v.x * v.x + v.y * v.y + v.z * v.z
  }

  /** Unity's `==` on Vector3: the difference is shorter than 1e-5. */
  predicate ApproxEqual(a: Vec3, b: Vec3) {
    SqrMagnitude(Minus(a, b)) < 0.00001 * 0.00001
  }

  /** Mathf.Clamp01 */
  function Clamp01(t: real): real {
    if t < 0.0 then 0.0 else if t > 1.0 then 1.0 else t
  }

  /** Vector3.Lerp: the parameter is clamped into [0, 1] before interpolating. */
  function Lerp(a: Vec3, b: Vec3, t: real): Vec3 {
    var s := Clamp01(t);
    Vec3(a.x + (b.x - a.x) * s, a.y + (b.y - a.y) * s, a.z + (b.z - a.z) * s)
  }

  /** The point a fraction t of the way from a to b. */
  function Along(a: Vec3, b: Vec3, t: real): Vec3 {
    Vec3(a.x + (b.x - a.x) * t, a.y + (b.y - a.y) * t, a.z + (b.z - a.z) * t)
  }

  /** p lies on the closed segment from a to b. */
  ghost predicate OnSegment(p: Vec3, a: Vec3, b: Vec3) {
    exists t :: 0.0 <= t <= 1.0 && p == Along(a, b, t)
  }

  /**
   p is a step from a towards b: on the segment between them, and on every
   axis between the two and no farther from b than a is.
   */
  ghost predicate Approaches(p: Vec3, a: Vec3, b: Vec3) {
    && OnSegment(p, a, b)
    && Between(p.x, a.x, b.x) && Between(p.y, a.y, b.y) && Between(p.z, a.z, b.z)
    && Abs(p.x - b.x) <= Abs(a.x - b.x)
    && Abs(p.y - b.y) <= Abs(a.y - b.y)
    && Abs(p.z - b.z) <= Abs(a.z - b.z)
  }

  /**
   Lerp steps towards its target: it is the point Clamp01(t) of the way
   along, reaching b once t >= 1 and staying at a while t <= 0.
   */
  lemma LerpApproaches(a: Vec3, b: Vec3, t: real)
    ensures Approaches(Lerp(a, b, t), a, b)
    ensures t >= 1.0 ==> Lerp(a, b, t) == b
    ensures t <= 0.0 ==> Lerp(a, b, t) == a
  {
    LerpOnSegment(a, b, t);
    LerpAxes(a, b, t);
    LerpEnds(a, b, t);
  }

  /** The segment part of LerpApproaches, with witness Clamp01(t). */
  lemma LerpOnSegment(a: Vec3, b: Vec3, t: real)
    ensures OnSegment(Lerp(a, b, t), a, b)
  {
    assert Lerp(a, b, t) == Along(a, b, Clamp01(t));
  }

  /** The per-axis part of LerpApproaches. */
  lemma LerpAxes(a: Vec3, b: Vec3, t: real)
    ensures var p := Lerp(a, b, t);
      && Between(p.x, a.x, b.x) && Between(p.y, a.y, b.y) && Between(p.z, a.z, b.z)
      && Abs(p.x - b.x) <= Abs(a.x - b.x)
      && Abs(p.y - b.y) <= Abs(a.y - b.y)
      && Abs(p.z - b.z) <= Abs(a.z - b.z)
  {
    var s := Clamp01(t);
    LerpAxis(a.x, b.x, s);
    LerpAxis(a.y, b.y, s);
    LerpAxis(a.z, b.z, s);
  }

  /** The clamped ends of LerpApproaches. */
  lemma LerpEnds(a: Vec3, b: Vec3, t: real)
    ensures t >= 1.0 ==> Lerp(a, b, t) == b
    ensures t <= 0.0 ==> Lerp(a, b, t) == a
  {
  }

  /** v lies on the closed interval between a and b, whichever is smaller. */
  predicate Between(v: real, a: real, b: real) {
    (a <= v <= b) || (b <= v <= a)
  }

  /** One axis of a clamped interpolation stays between its end points and no farther from the target. */
  lemma LerpAxis(a: real, b: real, s: real)
    requires 0.0 <= s <= 1.0
    ensures Between(a + (b - a) * s, a, b)
    ensures Abs(a + (b - a) * s - b) <= Abs(a - b)
  {
    var d := b - a;
    ScaleWithin(d, s);
    ScaleWithin(d, 1.0 - s);
    assert a + d * s - b == -(d * (1.0 - s));
  }

  /** Scaling d by a factor in [0, 1] lands between 0 and d. */
  lemma ScaleWithin(d: real, s: real)
    requires 0.0 <= s <= 1.0
    ensures Between(d * s, 0.0, d)
  {
    var m := if d >= 0.0 then d else -d;
    MulNonNeg(m, s);
    MulNonNeg(m, 1.0 - s);
    assert m - m * s == m * (1.0 - s);
    if d < 0.0 {
      assert d * s == -(m * s);
    }
  }

  lemma MulNonNeg(x: real, y: real)
    requires 0.0 <= x && 0.0 <= y
    ensures 0.0 <= x * y
  {
  }
}

=== FILE: gravity.dfy ===
/**
 The gravity resolver of Grid2D: DropAffectedColumns empties every column,
 sorts the collected cells by their recorded row and re-places each one in
 the lowest empty slot of its recorded column; SpawnNewCellsForEmptySpaces
 then fills every remaining empty slot with a fresh cell. CreateGrid and
 ClearGrid, the one-shot setup commands, share the same building blocks.

 List.Sort is not stable; it is modelled as an arbitrary row-ordered
 permutation `order` of the collected cells, and the results below hold for
 every such permutation.
 */
module Gravity {
  import opened Optional
  import opened Cells
  import opened GridStore

  // ----- collection

  /** The cells of column c in rows [0, n), bottom to top. */
  function ColumnBelow(g: Grid, c: int, n: nat): seq<Cell> {
    if n == 0 then []
    else ColumnBelow(g, c, n - 1) + (if Occupied(g, Coord(c, n - 1)) then [g.slots[Coord(c, n - 1)]] else [])
  }

  /** The cells of column c, bottom to top. */
  function Column(g: Grid, c: int): seq<Cell> {
    ColumnBelow(g, c, g.height)
  }

  /** The columns of g, indexed by column number. */
  function Columns(g: Grid): int -> seq<Cell> {
    c => Column(g, c)
  }

  /** Columns [0, n) of `cols`, concatenated in order. */
  function Flatten(cols: int -> seq<Cell>, n: nat): seq<Cell> {
    if n == 0 then [] else Flatten(cols, n - 1) + cols(n - 1)
  }

  /** cellsToReposition before sorting: column by column, each bottom to top. */
  function Gather(g: Grid): seq<Cell> {
    Flatten(Columns(g), g.width)
  }

  /** Ordered by recorded row, ties in any order. */
  ghost predicate ByRow(s: seq<Cell>) {
    forall i, j :: 0 <= i < j < |s| ==> s[i].pos.y <= s[j].pos.y
  }

  ghost predicate StrictlyByRow(s: seq<Cell>) {
    forall i, j :: 0 <= i < j < |s| ==> s[i].pos.y < s[j].pos.y
  }

  /** `order` is a possible outcome of sorting `cells` by row with an unstable sort. */
  ghost predicate IsRowSort(order: seq<Cell>, cells: seq<Cell>) {
    multiset(order) == multiset(cells) && ByRow(order)
  }

  /** ClearGrid, and the removal phase of DropAffectedColumns: every slot inside the grid is emptied. */
  function Cleared(g: Grid): (r: Grid)
    ensures SameFrame(r, g)
    ensures forall k :: InBounds(g, k) ==> k !in r.slots
    ensures forall k :: !InBounds(g, k) ==> (k in r.slots <==> k in g.slots)
    ensures forall k :: !InBounds(g, k) && k in g.slots ==> r.slots[k] == g.slots[k]
  {
    g.(slots := map k | k in g.slots && !InBounds(g, k) :: g.slots[k])
  }

  // ----- re-placement

  function LowestEmptyFrom(g: Grid, x: int, y: nat): (r: int)
    requires y <= g.height
    decreases g.height - y
    ensures r == -1 || y <= r < g.height
    ensures r >= 0 ==> !Occupied(g, Coord(x, r)) && forall j :: y <= j < r ==> Occupied(g, Coord(x, j))
    ensures r == -1 ==> forall j :: y <= j < g.height ==> Occupied(g, Coord(x, j))
  {
    if y == g.height then -1
    else if !Occupied(g, Coord(x, y)) then y
    else LowestEmptyFrom(g, x, y + 1)
  }

  /** FindLowestEmptyPosition: the first empty row of column x scanning upwards, or -1 when it is full. */
  function FindLowestEmpty(g: Grid, x: int): (r: int)
    ensures r == -1 || 0 <= r < g.height
    ensures r >= 0 ==> !Occupied(g, Coord(x, r)) && forall j :: 0 <= j < r ==> Occupied(g, Coord(x, j))
    ensures r == -1 ==> forall j :: 0 <= j < g.height ==> Occupied(g, Coord(x, j))
  {
    LowestEmptyFrom(g, x, 0)
  }

  /** One iteration of the re-add loop: the cell drops to the lowest empty row of its recorded column. */
  function Drop(g: Grid, cell: Cell): Grid {
    var x := cell.pos.x;
    var t := FindLowestEmpty(g, x);
    if t >= 0 then Put(g, Coord(x, t), cell.(pos := Coord(x, t))) else g
  }

  /** The re-add loop over a prefix of the sorted cells. */
  function Reinsert(g: Grid, order: seq<Cell>): Grid
    decreases |order|
  {
    if |order| == 0 then g else Drop(Reinsert(g, order[..|order| - 1]), order[|order| - 1])
  }

  /** The compaction half of DropAffectedColumns, given the outcome of the sort. */
  function Compact(g: Grid, order: seq<Cell>): Grid {
    Reinsert(Cleared(g), order)
  }

  /** The cells of `s` whose recorded column is c, in order. */
  function OfColumn(s: seq<Cell>, c: int): seq<Cell>
    decreases |s|
  {
    if |s| == 0 then []
    else OfColumn(s[..|s| - 1], c) + (if s[|s| - 1].pos.x == c then [s[|s| - 1]] else [])
  }

  /**
   The result of compacting g: in each column the cells that were there now
   fill rows 0, 1, ... in their original bottom-to-top order, each recording
   its new slot, and every higher row is empty.
   */
  ghost predicate Compacted(g: Grid, r: Grid) {
    && SameFrame(r, g)
    && (forall k :: k in r.slots ==> InBounds(r, k))
    && (forall k :: InBounds(r, k) ==> (k in r.slots <==> k.y < |Column(g, k.x)|))
    && (forall k :: InBounds(r, k) && k in r.slots ==> r.slots[k] == Column(g, k.x)[k.y].(pos := k))
  }

  // ----- facts about the collected columns

  lemma {:induction false} ColumnBelowFacts(g: Grid, c: int, n: nat)
    requires Consistent(g)
    ensures var s := ColumnBelow(g, c, n);
      && |s| <= n
      && (forall i :: 0 <= i < |s| ==>
            (s[i].pos.x == c && 0 <= s[i].pos.y < n && s[i].pos in g.slots && g.slots[s[i].pos] == s[i]))
      && StrictlyByRow(s)
  {
    if n > 0 {
      ColumnBelowFacts(g, c, n - 1);
    }
  }

  /** Every cell collected from column c records column c. */
  lemma ColumnStaysInColumn(g: Grid, c: int)
    requires Consistent(g)
    ensures forall i :: 0 <= i < |Column(g, c)| ==> Column(g, c)[i].pos.x == c
  {
    ColumnBelowFacts(g, c, g.height);
  }

  /** A column outside the grid collects nothing. */
  lemma {:induction false} ColumnOutside(g: Grid, c: int, n: nat)
    requires !(0 <= c < g.width)
    ensures ColumnBelow(g, c, n) == []
  {
    if n > 0 {
      ColumnOutside(g, c, n - 1);
    }
  }

  /** Every occupied slot of column c below row n appears in the collected column. */
  lemma {:induction false} ColumnBelowComplete(g: Grid, k: Coord, n: nat)
    requires Occupied(g, k) && k.y < n
    ensures g.slots[k] in ColumnBelow(g, k.x, n)
  {
    if k.y < n - 1 {
      ColumnBelowComplete(g, k, n - 1);
    }
  }

  lemma {:induction false} OfColumnAppend(a: seq<Cell>, b: seq<Cell>, c: int)
    ensures OfColumn(a + b, c) == OfColumn(a, c) + OfColumn(b, c)
    decreases |b|
  {
    if |b| == 0 {
      assert a + b == a;
    } else {
      assert (a + b)[..|a + b| - 1] == a + b[..|b| - 1];
      OfColumnAppend(a, b[..|b| - 1], c);
    }
  }

  lemma {:induction false} OfColumnAll(s: seq<Cell>, c: int)
    ensures (forall i :: 0 <= i < |s| ==> s[i].pos.x == c) ==> OfColumn(s, c) == s
    ensures (forall i :: 0 <= i < |s| ==> s[i].pos.x != c) ==> OfColumn(s, c) == []
    decreases |s|
  {
    if |s| > 0 {
      OfColumnAll(s[..|s| - 1], c);
      assert s[..|s| - 1] + [s[|s| - 1]] == s;
    }
  }

  lemma {:induction false} OfColumnMembers(s: seq<Cell>, c: int)
    ensures forall e :: e in OfColumn(s, c) ==> e in s && e.pos.x == c
    ensures |OfColumn(s, c)| <= |s|
    decreases |s|
  {
    if |s| > 0 {
      OfColumnMembers(s[..|s| - 1], c);
    }
  }

  lemma {:induction false} OfColumnCount(s: seq<Cell>, c: int, e: Cell)
    ensures multiset(OfColumn(s, c))[e] == if e.pos.x == c then multiset(s)[e] else 0
    decreases |s|
  {
    if |s| > 0 {
      OfColumnCount(s[..|s| - 1], c, e);
      assert s == s[..|s| - 1] + [s[|s| - 1]];
    }
  }

  lemma OfColumnPermutation(s1: seq<Cell>, s2: seq<Cell>, c: int)
    requires multiset(s1) == multiset(s2)
    ensures multiset(OfColumn(s1, c)) == multiset(OfColumn(s2, c))
  {
    forall e ensures multiset(OfColumn(s1, c))[e] == multiset(OfColumn(s2, c))[e] {
      OfColumnCount(s1, c, e);
      OfColumnCount(s2, c, e);
    }
  }

  lemma {:induction false} OfColumnByRow(s: seq<Cell>, c: int)
    requires ByRow(s)
    ensures ByRow(OfColumn(s, c))
    decreases |s|
  {
    if |s| > 0 {
      var p := s[..|s| - 1];
      var last := s[|s| - 1];
      assert ByRow(p);
      OfColumnByRow(p, c);
      OfColumnMembers(p, c);
      var f := OfColumn(s, c);
      if last.pos.x == c {
        forall i, j | 0 <= i < j < |f| ensures f[i].pos.y <= f[j].pos.y {
          if j == |f| - 1 {
            assert f[i] in p;
            var m :| 0 <= m < |p| && p[m] == f[i];
            assert s[m] == f[i];
          }
        }
      }
    }
  }

  /** Filtering a concatenation of columns splits at the last column. */
  lemma FlattenStep(cols: int -> seq<Cell>, n: nat, c: int)
    requires n > 0
    ensures OfColumn(Flatten(cols, n), c) == OfColumn(Flatten(cols, n - 1), c) + OfColumn(cols(n - 1), c)
  {
    OfColumnAppend(Flatten(cols, n - 1), cols(n - 1), c);
  }

  /** Column j of `cols` holds only cells recording column j. */
  ghost predicate Keyed(cols: int -> seq<Cell>) {
    forall j, i :: 0 <= i < |cols(j)| ==> cols(j)[i].pos.x == j
  }

  lemma ColumnsAreKeyed(g: Grid)
    requires Consistent(g)
    ensures Keyed(Columns(g))
  {
    forall j, i | 0 <= i < |Columns(g)(j)| ensures Columns(g)(j)[i].pos.x == j {
      ColumnStaysInColumn(g, j);
    }
  }

  /** Gathering keyed columns and then keeping column c yields exactly column c. */
  lemma {:induction false} FlattenColumn(cols: int -> seq<Cell>, n: nat, c: int)
    requires Keyed(cols)
    ensures 0 <= c < n ==> OfColumn(Flatten(cols, n), c) == cols(c)
    ensures !(0 <= c < n) ==> OfColumn(Flatten(cols, n), c) == []
  {
    if n > 0 {
      FlattenColumn(cols, n - 1, c);
      FlattenStep(cols, n, c);
      OfColumnAll(cols(n - 1), c);
      Splice(OfColumn(Flatten(cols, n - 1), c), OfColumn(cols(n - 1), c), cols(c), c == n - 1);
    }
  }

  /** Exactly one of two pieces is the column and the other is empty. */
  lemma Splice(prev: seq<Cell>, last: seq<Cell>, col: seq<Cell>, isLast: bool)
    requires isLast ==> prev == [] && last == col
    requires !isLast ==> last == []
    ensures isLast ==> prev + last == col
    ensures !isLast ==> prev + last == prev
  {
  }

  /**
   Two sequences with the same elements, one strictly and one weakly ordered
   by row, are equal: sorting cannot reorder cells whose rows all differ.
   */
  lemma {:induction false} SortedUnique(a: seq<Cell>, b: seq<Cell>)
    requires StrictlyByRow(a) && ByRow(b) && multiset(a) == multiset(b)
    ensures a == b
    decreases |a|
  {
    assert |a| == |multiset(a)| == |multiset(b)| == |b|;
    if |a| > 0 {
      SortedHeads(a, b);
      DropHead(a, b);
      SortedUnique(a[1..], b[1..]);
      assert a == [a[0]] + a[1..];
      assert b == [b[0]] + b[1..];
    }
  }

  /** The first elements agree: both are the unique cell of least row. */
  lemma SortedHeads(a: seq<Cell>, b: seq<Cell>)
    requires StrictlyByRow(a) && ByRow(b) && multiset(a) == multiset(b)
    requires |a| > 0 && |b| > 0
    ensures a[0] == b[0]
  {
    assert b[0] in multiset(a);
    var i :| 0 <= i < |a| && a[i] == b[0];
    assert a[0] in multiset(b);
    var j :| 0 <= j < |b| && b[j] == a[0];
    assert b[0].pos.y <= b[j].pos.y;
    assert a[0].pos.y <= a[i].pos.y;
  }

  lemma DropHead(a: seq<Cell>, b: seq<Cell>)
    requires multiset(a) == multiset(b) && |a| > 0 && |b| > 0 && a[0] == b[0]
    ensures multiset(a[1..]) == multiset(b[1..])
  {
    assert a == [a[0]] + a[1..];
    assert b == [b[0]] + b[1..];
    assert multiset(a) == multiset{a[0]} + multiset(a[1..]);
    assert multiset(b) == multiset{b[0]} + multiset(b[1..]);
    forall e ensures multiset(a[1..])[e] == multiset(b[1..])[e] {
      assert multiset(a)[e] == multiset{a[0]}[e] + multiset(a[1..])[e];
      assert multiset(b)[e] == multiset{b[0]}[e] + multiset(b[1..])[e];
    }
  }

  /** Whatever tie order the sort chose, the cells of one column come out in their original order. */
  lemma SortKeepsColumn(g: Grid, order: seq<Cell>, c: int)
    requires Consistent(g) && IsRowSort(order, Gather(g))
    ensures OfColumn(order, c) == Column(g, c)
  {
    OfColumnPermutation(order, Gather(g), c);
    ColumnsAreKeyed(g);
    FlattenColumn(Columns(g), g.width, c);
    assert Columns(g)(c) == Column(g, c);
    if !(0 <= c < g.width) {
      ColumnOutside(g, c, g.height);
    }
    OfColumnByRow(order, c);
    ColumnBelowFacts(g, c, g.height);
    SortedUnique(Column(g, c), OfColumn(order, c));
  }

  // ----- the re-add loop

  /** Column by column, the first |OfColumn(s, c)| rows hold those cells in order and the rest is empty. */
  ghost predicate Stacked(r: Grid, s: seq<Cell>) {
    && (forall k :: InBounds(r, k) ==> (k in r.slots <==> k.y < |OfColumn(s, k.x)|))
    && (forall k :: InBounds(r, k) && k in r.slots ==> r.slots[k] == OfColumn(s, k.x)[k.y].(pos := k))
  }

  /** Once a column is stacked, its lowest empty row is the number of cells it has received. */
  lemma LowestIsCount(r: Grid, s: seq<Cell>, x: int)
    requires Stacked(r, s)
    requires 0 <= x < r.width && |OfColumn(s, x)| < r.height
    ensures FindLowestEmpty(r, x) == |OfColumn(s, x)|
  {
    var k := |OfColumn(s, x)|;
    assert !Occupied(r, Coord(x, k));
    assert forall j :: 0 <= j < k ==> Occupied(r, Coord(x, j));
  }

  /** One step of the re-add loop keeps every column stacked. */
  lemma DropStacks(r1: Grid, p: seq<Cell>, e: Cell)
    requires Stacked(r1, p)
    requires 0 <= e.pos.x < r1.width ==> |OfColumn(p, e.pos.x)| < r1.height
    ensures Stacked(Drop(r1, e), p + [e])
    ensures SameFrame(Drop(r1, e), r1)
    ensures forall k :: !InBounds(r1, k) ==> (k in Drop(r1, e).slots <==> k in r1.slots)
    ensures forall k :: !InBounds(r1, k) && k in r1.slots ==> Drop(r1, e).slots[k] == r1.slots[k]
  {
    var x := e.pos.x;
    if 0 <= x < r1.width {
      LowestIsCount(r1, p, x);
      assert Drop(r1, e) == Put(r1, Coord(x, |OfColumn(p, x)|), e.(pos := Coord(x, |OfColumn(p, x)|)));
    }
    var r := Drop(r1, e);
    forall q | InBounds(r, q)
      ensures (q in r.slots <==> q.y < |OfColumn(p + [e], q.x)|)
      ensures q in r.slots ==> r.slots[q] == OfColumn(p + [e], q.x)[q.y].(pos := q)
    {
      DropStackedAt(r1, p, e, q);
    }
  }

  /** The slot-by-slot content of DropStacks. */
  lemma DropStackedAt(r1: Grid, p: seq<Cell>, e: Cell, q: Coord)
    requires Stacked(r1, p)
    requires 0 <= e.pos.x < r1.width ==> |OfColumn(p, e.pos.x)| < r1.height
    requires InBounds(r1, q)
    ensures q in Drop(r1, e).slots <==> q.y < |OfColumn(p + [e], q.x)|
    ensures q in Drop(r1, e).slots ==> Drop(r1, e).slots[q] == OfColumn(p + [e], q.x)[q.y].(pos := q)
  {
    OfColumnSnoc(p, e, q.x);
    var x := e.pos.x;
    if 0 <= x < r1.width {
      var k := |OfColumn(p, x)|;
      LowestIsCount(r1, p, x);
      assert Drop(r1, e) == Put(r1, Coord(x, k), e.(pos := Coord(x, k)));
      PutStackedAt(r1, e, k, q, OfColumn(p, q.x), OfColumn(p + [e], q.x));
    } else {
      assert Drop(r1, e) == r1;
    }
  }

  /**
   Placing e at row k of its column, k being the number of cells that column
   already holds, extends that column by e and leaves every other column as is.
   */
  lemma PutStackedAt(r1: Grid, e: Cell, k: int, q: Coord, before: seq<Cell>, after: seq<Cell>)
    requires InBounds(r1, q) && InBounds(r1, Coord(e.pos.x, k))
    requires q in r1.slots <==> q.y < |before|
    requires q in r1.slots ==> r1.slots[q] == before[q.y].(pos := q)
    requires after == before + (if e.pos.x == q.x then [e] else [])
    requires q.x == e.pos.x ==> k == |before|
    ensures var r := Put(r1, Coord(e.pos.x, k), e.(pos := Coord(e.pos.x, k)));
      && (q in r.slots <==> q.y < |after|)
      && (q in r.slots ==> r.slots[q] == after[q.y].(pos := q))
  {
  }

  lemma OfColumnSnoc(p: seq<Cell>, e: Cell, c: int)
    ensures OfColumn(p + [e], c) == OfColumn(p, c) + (if e.pos.x == c then [e] else [])
  {
    assert (p + [e])[..|p + [e]| - 1] == p;
  }

  /** Every prefix sends at most as many cells to a column as the whole sequence. */
  lemma {:induction false} OfColumnPrefix(s: seq<Cell>, m: nat, c: int)
    requires m <= |s|
    ensures |OfColumn(s[..m], c)| <= |OfColumn(s, c)|
    decreases |s|
  {
    if m < |s| {
      var p := s[..|s| - 1];
      assert s[..m] == p[..m];
      OfColumnPrefix(p, m, c);
    } else {
      assert s[..m] == s;
    }
  }

  /**
   Re-adding cells one by one into empty columns stacks each column's cells
   from row 0 upwards in the order they arrive, as long as no column receives
   more cells than it has rows.
   */
  lemma {:induction false} ReinsertStacks(g0: Grid, s: seq<Cell>)
    requires forall k :: InBounds(g0, k) ==> k !in g0.slots
    requires forall c :: 0 <= c < g0.width ==> |OfColumn(s, c)| <= g0.height
    ensures SameFrame(Reinsert(g0, s), g0)
    ensures Stacked(Reinsert(g0, s), s)
    ensures forall k :: !InBounds(g0, k) ==> (k in Reinsert(g0, s).slots <==> k in g0.slots)
    ensures forall k :: !InBounds(g0, k) && k in g0.slots ==> Reinsert(g0, s).slots[k] == g0.slots[k]
    decreases |s|
  {
    if |s| == 0 {
      assert forall c :: OfColumn(s, c) == [];
    } else {
      var p := s[..|s| - 1];
      var e := s[|s| - 1];
      assert p + [e] == s;
      forall c | 0 <= c < g0.width ensures |OfColumn(p, c)| <= g0.height {
        OfColumnPrefix(s, |s| - 1, c);
      }
      ReinsertStacks(g0, p);
      if 0 <= e.pos.x < g0.width {
        assert OfColumn(s, e.pos.x) == OfColumn(p, e.pos.x) + [e];
      }
      DropStacks(Reinsert(g0, p), p, e);
    }
  }

  /**
   Compaction keeps every column's order: a column holding cells at rows
   r1 < r2 < ... < rk afterwards holds the same cells at rows 0 .. k-1 in the
   same order, none changes column, and whatever tie order the sort chose.
   */
  lemma CompactKeepsColumnOrder(g: Grid, order: seq<Cell>)
    requires Consistent(g) && IsRowSort(order, Gather(g))
    ensures Compacted(g, Compact(g, order))
  {
    var g0 := Cleared(g);
    forall c | 0 <= c < g0.width ensures |OfColumn(order, c)| <= g0.height {
      SortKeepsColumn(g, order, c);
      ColumnBelowFacts(g, c, g.height);
    }
    ReinsertStacks(g0, order);
    var r := Compact(g, order);
    forall k | InBounds(r, k) ensures OfColumn(order, k.x) == Column(g, k.x) {
      SortKeepsColumn(g, order, k.x);
    }
  }

  /** FindLowestEmptyPosition never answers -1 while the sorted cells are re-added. */
  lemma NeverFull(g: Grid, order: seq<Cell>, i: nat)
    requires Consistent(g) && IsRowSort(order, Gather(g))
    requires i < |order|
    ensures FindLowestEmpty(Reinsert(Cleared(g), order[..i]), order[i].pos.x) >= 0
  {
    var g0 := Cleared(g);
    var p := order[..i];
    var x := order[i].pos.x;
    assert order[..i + 1][..i] == p;
    assert OfColumn(order[..i + 1], x) == OfColumn(p, x) + [order[i]];
    OfColumnPrefix(order, i + 1, x);
    SortKeepsColumn(g, order, x);
    ColumnBelowFacts(g, x, g.height);
    if !(0 <= x < g.width) {
      ColumnOutside(g, x, g.height);
    }
    forall c | 0 <= c < g0.width ensures |OfColumn(p, c)| <= g0.height {
      SortKeepsColumn(g, order, c);
      ColumnBelowFacts(g, c, g.height);
      OfColumnPrefix(order, i, c);
    }
    ReinsertStacks(g0, p);
    LowestIsCount(Reinsert(g0, p), p, x);
  }

  /** After compaction the grid is still consistent and holds exactly the same cells. */
  lemma CompactedConsistent(g: Grid, r: Grid)
    requires Consistent(g) && Compacted(g, r)
    ensures Consistent(r)
    ensures Ids(r) == Ids(g)
  {
    CompactedDistinct(g, r);
    CompactedKeepsOnly(g, r);
    CompactedKeepsAll(g, r);
  }

  lemma CompactedDistinct(g: Grid, r: Grid)
    requires Consistent(g) && Compacted(g, r)
    ensures forall k1, k2 :: k1 in r.slots && k2 in r.slots && r.slots[k1].id == r.slots[k2].id ==> k1 == k2
  {
    forall k1, k2 | k1 in r.slots && k2 in r.slots && r.slots[k1].id == r.slots[k2].id ensures k1 == k2 {
      ColumnBelowFacts(g, k1.x, g.height);
      ColumnBelowFacts(g, k2.x, g.height);
      var o1 := Column(g, k1.x)[k1.y].pos;
      var o2 := Column(g, k2.x)[k2.y].pos;
      assert g.slots[o1].id == g.slots[o2].id;
    }
  }

  lemma CompactedKeepsOnly(g: Grid, r: Grid)
    requires Consistent(g) && Compacted(g, r)
    ensures Ids(r) <= Ids(g)
  {
    forall i | i in Ids(r) ensures i in Ids(g) {
      var k :| k in r.slots && r.slots[k].id == i;
      ColumnBelowFacts(g, k.x, g.height);
      var o := Column(g, k.x)[k.y].pos;
      assert g.slots[o].id == i;
    }
  }

  lemma CompactedKeepsAll(g: Grid, r: Grid)
    requires Consistent(g) && Compacted(g, r)
    ensures Ids(g) <= Ids(r)
  {
    forall i | i in Ids(g) ensures i in Ids(r) {
      var k0 :| k0 in g.slots && g.slots[k0].id == i;
      ColumnBelowComplete(g, k0, g.height);
      ColumnBelowFacts(g, k0.x, g.height);
      var j :| 0 <= j < |Column(g, k0.x)| && Column(g, k0.x)[j] == g.slots[k0];
      var k := Coord(k0.x, j);
      assert InBounds(r, k);
      assert r.slots[k].id == i;
    }
  }

  // ----- spawning

  /** The spawn source: the cell prefab, carrying its default colour, and the palette. */
  datatype Spawner = Spawner(prefab: Option<ColorRef>, palette: seq<ColorRef>)

  /** Neither the prefab nor the palette is missing. */
  predicate CanSpawn(sp: Spawner) {
    sp.prefab.Some? && |sp.palette| > 0
  }

  /** `availableColors[Random.Range(0, n)]`, the random index being the residue of `roll`. */
  function PaletteColor(palette: seq<ColorRef>, roll: nat): (r: ColorRef)
    ensures |palette| > 0 ==> r in palette
  {
    if |palette| == 0 then None else palette[roll % |palette|]
  }

  /** A grid together with the first object identity not yet handed out. */
  datatype Spawned = Spawned(grid: Grid, next: nat)

  /** Rows n-1 down to 0 of column c. */
  function TopDown(c: int, n: nat): seq<Coord> {
    if n == 0 then [] else [Coord(c, n - 1)] + TopDown(c, n - 1)
  }

  /** Rows 0 up to n-1 of column c. */
  function BottomUp(c: int, n: nat): seq<Coord> {
    if n == 0 then [] else BottomUp(c, n - 1) + [Coord(c, n - 1)]
  }

  /** Column c scanned top-down or bottom-up. */
  function Scan(c: int, h: nat, topDown: bool): seq<Coord> {
    if topDown then TopDown(c, h) else BottomUp(c, h)
  }

  /** Columns 0 .. w-1 left to right, each scanned top-down or bottom-up. */
  function Sweep(w: nat, h: nat, topDown: bool): seq<Coord> {
    if w == 0 then [] else Sweep(w - 1, h, topDown) + Scan(w - 1, h, topDown)
  }

  lemma {:induction false} SweepCovers(w: nat, h: nat, topDown: bool)
    ensures forall k: Coord :: 0 <= k.x < w && 0 <= k.y < h ==> k in Sweep(w, h, topDown)
  {
    if w > 0 {
      SweepCovers(w - 1, h, topDown);
      ScanCovers(w - 1, h, topDown);
      CoverStep(Sweep(w - 1, h, topDown), Scan(w - 1, h, topDown), w - 1, h);
    }
  }

  lemma ScanCovers(c: int, h: nat, topDown: bool)
    ensures forall y :: 0 <= y < h ==> Coord(c, y) in Scan(c, h, topDown)
  {
    ColumnCovers(c, h);
  }

  /** Appending a scan of column c to a scan of columns 0 .. c-1 covers columns 0 .. c. */
  lemma CoverStep(prev: seq<Coord>, last: seq<Coord>, c: nat, h: nat)
    requires forall k: Coord :: 0 <= k.x < c && 0 <= k.y < h ==> k in prev
    requires forall y :: 0 <= y < h ==> Coord(c, y) in last
    ensures forall k: Coord :: 0 <= k.x <= c && 0 <= k.y < h ==> k in prev + last
  {
    forall k: Coord | 0 <= k.x <= c && 0 <= k.y < h ensures k in prev + last {
      if k.x < c {
        assert k in prev;
      } else {
        assert k == Coord(c, k.y);
        assert k in last;
      }
    }
  }

  lemma ColumnCovers(c: int, h: nat)
    ensures forall y :: 0 <= y < h ==> Coord(c, y) in TopDown(c, h) && Coord(c, y) in BottomUp(c, h)
  {
    TopDownCovers(c, h);
    BottomUpCovers(c, h);
  }

  lemma {:induction false} TopDownCovers(c: int, h: nat)
    ensures forall y :: 0 <= y < h ==> Coord(c, y) in TopDown(c, h)
  {
    if h > 0 {
      TopDownCovers(c, h - 1);
      assert TopDown(c, h) == [Coord(c, h - 1)] + TopDown(c, h - 1);
    }
  }

  lemma {:induction false} BottomUpCovers(c: int, h: nat)
    ensures forall y :: 0 <= y < h ==> Coord(c, y) in BottomUp(c, h)
  {
    if h > 0 {
      BottomUpCovers(c, h - 1);
      assert BottomUp(c, h) == BottomUp(c, h - 1) + [Coord(c, h - 1)];
    }
  }

  /**
   Visits `coords` in order and creates a fresh cell of colour pick(k) in each
   slot k (SpawnNewCell, or CreateGrid's loop body); when `onlyEmpty` holds,
   occupied slots are skipped, as SpawnNewCellsForEmptySpaces does.
   */
  function Populate(g: Grid, coords: seq<Coord>, onlyEmpty: bool, pick: Coord -> ColorRef, next: nat): Spawned
    decreases |coords|
  {
    if |coords| == 0 then Spawned(g, next)
    else
      var prev := Populate(g, coords[..|coords| - 1], onlyEmpty, pick, next);
      var k := coords[|coords| - 1];
      if onlyEmpty && Occupied(prev.grid, k) then prev
      else Spawned(Put(prev.grid, k, Cell(prev.next, pick(k), k)), prev.next + 1)
  }

  /** Every slot a cell is created in holds a fresh identity; every other slot is as before. */
  ghost predicate FreshOrKept(g: Grid, r: Grid, pick: Coord -> ColorRef, next: nat) {
    forall k :: k in r.slots ==>
      (k in g.slots && r.slots[k] == g.slots[k]) || (next <= r.slots[k].id && r.slots[k].color == pick(k))
  }

  /**
   What spawning over `coords` promises: a consistent grid over the same frame
   with fresh identities only; every listed in-range slot is occupied, unlisted
   slots are untouched, and when only empty slots are filled no cell is displaced.
   */
  ghost predicate PopulatedFrom(g: Grid, coords: seq<Coord>, onlyEmpty: bool, pick: Coord -> ColorRef, next: nat, r: Spawned) {
    && Consistent(r.grid) && IdsBelow(r.grid, r.next) && next <= r.next && SameFrame(r.grid, g)
    && (forall k :: k in coords && InBounds(g, k) ==> k in r.grid.slots)
    && (forall k :: k !in coords ==> (k in r.grid.slots <==> k in g.slots))
    && (forall k :: k !in coords && k in g.slots ==> r.grid.slots[k] == g.slots[k])
    && (onlyEmpty ==> forall k :: k in g.slots ==> k in r.grid.slots && r.grid.slots[k] == g.slots[k])
    && FreshOrKept(g, r.grid, pick, next)
  }

  lemma {:induction false} PopulateFills(g: Grid, coords: seq<Coord>, onlyEmpty: bool, pick: Coord -> ColorRef, next: nat)
    requires Consistent(g) && IdsBelow(g, next)
    ensures PopulatedFrom(g, coords, onlyEmpty, pick, next, Populate(g, coords, onlyEmpty, pick, next))
    decreases |coords|
  {
    if |coords| == 0 {
      assert Populate(g, coords, onlyEmpty, pick, next) == Spawned(g, next);
    } else {
      var p := coords[..|coords| - 1];
      var k := coords[|coords| - 1];
      assert coords == p + [k];
      PopulateFills(g, p, onlyEmpty, pick, next);
      PopulateStep(g, p, k, onlyEmpty, pick, next, Populate(g, p, onlyEmpty, pick, next),
                   Populate(g, coords, onlyEmpty, pick, next));
    }
  }

  /** One more coordinate: spawning into it (or skipping an occupied one) keeps the promise. */
  lemma PopulateStep(g: Grid, p: seq<Coord>, k: Coord, onlyEmpty: bool, pick: Coord -> ColorRef, next: nat,
                     prev: Spawned, r: Spawned)
    requires PopulatedFrom(g, p, onlyEmpty, pick, next, prev)
    requires r == if onlyEmpty && Occupied(prev.grid, k) then prev
                  else Spawned(Put(prev.grid, k, Cell(prev.next, pick(k), k)), prev.next + 1)
    ensures PopulatedFrom(g, p + [k], onlyEmpty, pick, next, r)
  {
    if onlyEmpty && Occupied(prev.grid, k) {
      PopulateSkip(g, p, k, onlyEmpty, pick, next, prev);
    } else {
      PopulateSpawn(g, p, k, onlyEmpty, pick, next, prev);
    }
  }

  lemma PopulateSkip(g: Grid, p: seq<Coord>, k: Coord, onlyEmpty: bool, pick: Coord -> ColorRef, next: nat,
                     prev: Spawned)
    requires PopulatedFrom(g, p, onlyEmpty, pick, next, prev)
    requires Occupied(prev.grid, k)
    ensures PopulatedFrom(g, p + [k], onlyEmpty, pick, next, prev)
  {
    forall k1 | k1 in p + [k] && InBounds(g, k1) ensures k1 in prev.grid.slots {
      if k1 != k {
        assert k1 in p;
      }
    }
  }

  lemma PopulateSpawn(g: Grid, p: seq<Coord>, k: Coord, onlyEmpty: bool, pick: Coord -> ColorRef, next: nat,
                      prev: Spawned)
    requires PopulatedFrom(g, p, onlyEmpty, pick, next, prev)
    requires !(onlyEmpty && Occupied(prev.grid, k))
    ensures PopulatedFrom(g, p + [k], onlyEmpty, pick, next,
                          Spawned(Put(prev.grid, k, Cell(prev.next, pick(k), k)), prev.next + 1))
  {
    var c := Cell(prev.next, pick(k), k);
    PutFresh(prev.grid, k, c);
    PutKeeps(g, p, k, c, prev.grid, onlyEmpty);
    PutFreshOrKept(g, prev.grid, k, c, pick, next);
  }

  /** Placing into slot k covers k as well, and touches no other slot. */
  lemma PutKeeps(g: Grid, p: seq<Coord>, k: Coord, c: Cell, prev: Grid, onlyEmpty: bool)
    requires SameFrame(prev, g)
    requires forall k1 :: k1 in p && InBounds(g, k1) ==> k1 in prev.slots
    requires forall k1 :: k1 !in p ==> (k1 in prev.slots <==> k1 in g.slots)
    requires forall k1 :: k1 !in p && k1 in g.slots ==> prev.slots[k1] == g.slots[k1]
    requires onlyEmpty ==> forall k1 :: k1 in g.slots ==> k1 in prev.slots && prev.slots[k1] == g.slots[k1]
    requires !(onlyEmpty && Occupied(prev, k))
    ensures var r := Put(prev, k, c);
      && SameFrame(r, g)
      && (forall k1 :: k1 in p + [k] && InBounds(g, k1) ==> k1 in r.slots)
      && (forall k1 :: k1 !in p + [k] ==> (k1 in r.slots <==> k1 in g.slots))
      && (forall k1 :: k1 !in p + [k] && k1 in g.slots ==> r.slots[k1] == g.slots[k1])
      && (onlyEmpty ==> forall k1 :: k1 in g.slots ==> k1 in r.slots && r.slots[k1] == g.slots[k1])
  {
    var r := Put(prev, k, c);
    forall k1 | k1 in p + [k] && InBounds(g, k1) ensures k1 in r.slots {
      if k1 != k {
        assert k1 in p;
      }
    }
    if onlyEmpty && InBounds(g, k) {
      assert k !in g.slots;
    }
  }

  /** A cell with a fresh identity and the picked colour keeps every slot fresh or kept. */
  lemma PutFreshOrKept(g: Grid, prev: Grid, k: Coord, c: Cell, pick: Coord -> ColorRef, next: nat)
    requires FreshOrKept(g, prev, pick, next)
    requires next <= c.id && c.color == pick(k)
    ensures FreshOrKept(g, Put(prev, k, c), pick, next)
  {
  }

  /** Placing a cell with an unused identity at its own in-range slot keeps a grid consistent. */
  lemma PutFresh(g: Grid, k: Coord, c: Cell)
    requires Consistent(g) && IdsBelow(g, c.id) && c.pos == k
    ensures Consistent(Put(g, k, c)) && IdsBelow(Put(g, k, c), c.id + 1)
  {
    if InBounds(g, k) {
      var r := Put(g, k, c);
      forall k1, k2 | k1 in r.slots && k2 in r.slots && r.slots[k1].id == r.slots[k2].id
        ensures k1 == k2
      {
        if k1 != k && k2 != k {
          assert g.slots[k1].id == g.slots[k2].id;
        }
      }
    }
  }

  /** SpawnNewCellsForEmptySpaces over every column; skipped when the prefab or the palette is missing. */
  function SpawnNewCells(g: Grid, sp: Spawner, roll: Coord -> nat, next: nat): Spawned {
    if !CanSpawn(sp) then Spawned(g, next)
    else Populate(g, Sweep(g.width, g.height, true), true, k => PaletteColor(sp.palette, roll(k)), next)
  }

  /**
   UpdatePositions, apart from the interaction lock (see the Input module):
   compact every column, then top every column up with fresh cells.
   */
  function UpdatePositions(g: Grid, sp: Spawner, order: seq<Cell>, roll: Coord -> nat, next: nat): Spawned {
    SpawnNewCells(Compact(g, order), sp, roll, next)
  }

  /**
   What gravity resolution leaves behind, read against the grid g it started
   from: a consistent grid over the same frame whose columns hold g's cells
   compacted in their original order, with only fresh palette-coloured cells
   above them; with a prefab and a non-empty palette every slot is occupied,
   and otherwise the rows above stay empty; no identity is lost.
   */
  ghost predicate Settles(g: Grid, sp: Spawner, next: nat, r: Spawned) {
    && Consistent(r.grid) && IdsBelow(r.grid, r.next) && next <= r.next && SameFrame(r.grid, g)
    && (forall k :: InBounds(g, k) && k.y < |Column(g, k.x)| ==>
          k in r.grid.slots && r.grid.slots[k] == Column(g, k.x)[k.y].(pos := k))
    && (forall k :: InBounds(g, k) && k.y >= |Column(g, k.x)| && k in r.grid.slots ==>
          next <= r.grid.slots[k].id && r.grid.slots[k].color in sp.palette)
    && (CanSpawn(sp) ==> forall k :: InBounds(g, k) ==> k in r.grid.slots)
    && (!CanSpawn(sp) ==> forall k :: InBounds(g, k) && k.y >= |Column(g, k.x)| ==> k !in r.grid.slots)
    && Ids(g) <= Ids(r.grid)
    && (forall k :: k in r.grid.slots ==> r.grid.slots[k].id in Ids(g) || next <= r.grid.slots[k].id)
  }

  /** Gravity resolution on a consistent grid, with a row-sorted order of its cells, settles it. */
  lemma UpdatePositionsSettles(g: Grid, sp: Spawner, order: seq<Cell>, roll: Coord -> nat, next: nat)
    requires Consistent(g) && IdsBelow(g, next) && IsRowSort(order, Gather(g))
    ensures Settles(g, sp, next, UpdatePositions(g, sp, order, roll, next))
  {
    var c := Compact(g, order);
    CompactPhase(g, order, next);
    SpawnPhase(c, sp, roll, next);
    Settled(g, c, SpawnNewCells(c, sp, roll, next), sp, next);
  }

  /** Compaction followed by a spawn phase that only adds fresh palette cells settles g. */
  lemma Settled(g: Grid, c: Grid, r: Spawned, sp: Spawner, next: nat)
    requires Compacted(g, c) && Ids(c) == Ids(g)
    requires Consistent(r.grid) && IdsBelow(r.grid, r.next) && next <= r.next && SameFrame(r.grid, c)
    requires forall k :: k in c.slots ==> k in r.grid.slots && r.grid.slots[k] == c.slots[k]
    requires forall k :: k in r.grid.slots && k !in c.slots ==>
               next <= r.grid.slots[k].id && r.grid.slots[k].color in sp.palette
    requires CanSpawn(sp) ==> forall k :: InBounds(c, k) ==> k in r.grid.slots
    requires !CanSpawn(sp) ==> r.grid == c
    ensures Settles(g, sp, next, r)
  {
    SettledIds(g, c, r.grid, next);
  }

  /**
   The compaction phase: the result is the compacted form of g, still
   consistent, with the same identities.
   */
  lemma CompactPhase(g: Grid, order: seq<Cell>, next: nat)
    requires Consistent(g) && IdsBelow(g, next) && IsRowSort(order, Gather(g))
    ensures var c := Compact(g, order);
      Compacted(g, c) && Consistent(c) && Ids(c) == Ids(g) && IdsBelow(c, next)
  {
    var c := Compact(g, order);
    CompactKeepsColumnOrder(g, order);
    CompactedConsistent(g, c);
    forall k | k in c.slots ensures c.slots[k].id < next {
      assert c.slots[k].id in Ids(g);
      var k0 :| k0 in g.slots && g.slots[k0].id == c.slots[k].id;
    }
  }

  /**
   The spawn phase over any consistent grid: placed cells stay where they
   are; every new cell is fresh and palette-coloured; with a prefab and a
   palette every slot is filled, and without them nothing happens.
   */
  lemma SpawnPhase(c: Grid, sp: Spawner, roll: Coord -> nat, next: nat)
    requires Consistent(c) && IdsBelow(c, next)
    ensures var r := SpawnNewCells(c, sp, roll, next);
      && Consistent(r.grid) && IdsBelow(r.grid, r.next) && next <= r.next && SameFrame(r.grid, c)
      && (forall k :: k in c.slots ==> k in r.grid.slots && r.grid.slots[k] == c.slots[k])
      && (forall k :: k in r.grid.slots && k !in c.slots ==>
            next <= r.grid.slots[k].id && r.grid.slots[k].color in sp.palette)
      && (CanSpawn(sp) ==> forall k :: InBounds(c, k) ==> k in r.grid.slots)
      && (!CanSpawn(sp) ==> r.grid == c)
  {
    if CanSpawn(sp) {
      var pick := k => PaletteColor(sp.palette, roll(k));
      PopulateFills(c, Sweep(c.width, c.height, true), true, pick, next);
      SweepCovers(c.width, c.height, true);
    }
  }

  /** No identity is lost by gravity, and every identity it places is old or fresh. */
  lemma SettledIds(g: Grid, c: Grid, r: Grid, next: nat)
    requires Ids(c) == Ids(g)
    requires forall k :: k in c.slots ==> k in r.slots && r.slots[k] == c.slots[k]
    requires forall k :: k in r.slots && k !in c.slots ==> next <= r.slots[k].id
    ensures Ids(g) <= Ids(r)
    ensures forall k :: k in r.slots ==> r.slots[k].id in Ids(g) || next <= r.slots[k].id
  {
    forall i | i in Ids(g) ensures i in Ids(r) {
      assert i in Ids(c);
      var k :| k in c.slots && c.slots[k].id == i;
      assert r.slots[k].id == i;
    }
    forall k | k in r.slots ensures r.slots[k].id in Ids(g) || next <= r.slots[k].id {
      if k in c.slots {
        assert c.slots[k].id in Ids(c);
      }
    }
  }

  // ----- setup commands

  /** ClearGrid destroys every placed cell: on a consistent grid nothing is left. */
  lemma ClearGridEmpties(g: Grid)
    requires Consistent(g)
    ensures Cleared(g).slots == map[]
    ensures Ids(Cleared(g)) == {}
  {
  }

  /**
   CreateGrid: clears the grid, then, when the prefab is set, instantiates a
   cell in every slot, column by column and bottom-up, coloured from the
   palette or, with an empty palette, keeping the prefab's own colour.
   */
  function CreateGrid(g: Grid, sp: Spawner, roll: Coord -> nat, next: nat): Spawned {
    var empty := Cleared(g);
    if sp.prefab.None? then Spawned(empty, next)
    else Populate(empty, Sweep(g.width, g.height, false), false,
                  k => if |sp.palette| > 0 then PaletteColor(sp.palette, roll(k)) else sp.prefab.value, next)
  }

  /**
   What CreateGrid promises: a consistent grid over the same frame; without a
   prefab it is empty; with one every slot holds a fresh cell, coloured from
   the palette when there is one.
   */
  ghost predicate FreshGrid(g: Grid, sp: Spawner, next: nat, r: Spawned) {
    && Consistent(r.grid) && IdsBelow(r.grid, r.next) && SameFrame(r.grid, g)
    && (sp.prefab.None? ==> r.grid.slots == map[])
    && (sp.prefab.Some? ==> forall k :: InBounds(g, k) ==> k in r.grid.slots && next <= r.grid.slots[k].id)
    && (sp.prefab.Some? && |sp.palette| > 0 ==> forall k :: k in r.grid.slots ==> r.grid.slots[k].color in sp.palette)
  }

  lemma CreateGridFills(g: Grid, sp: Spawner, roll: Coord -> nat, next: nat)
    requires Consistent(g)
    ensures FreshGrid(g, sp, next, CreateGrid(g, sp, roll, next))
  {
    var empty := Cleared(g);
    assert empty.slots == map[];
    if sp.prefab.Some? {
      var coords := Sweep(g.width, g.height, false);
      var pick := k => if |sp.palette| > 0 then PaletteColor(sp.palette, roll(k)) else sp.prefab.value;
      PopulateFills(empty, coords, false, pick, next);
      SweepCovers(g.width, g.height, false);
      forall k | |sp.palette| > 0 ensures pick(k) in sp.palette {
        assert pick(k) == PaletteColor(sp.palette, roll(k));
      }
      FilledFresh(g, empty, coords, Populate(empty, coords, false, pick, next), sp, pick, next);
    }
  }

  /** Populating an empty grid over a sweep that covers it, with a palette-respecting pick, gives a fresh grid. */
  lemma FilledFresh(g: Grid, empty: Grid, coords: seq<Coord>, r: Spawned, sp: Spawner,
                    pick: Coord -> ColorRef, next: nat)
    requires sp.prefab.Some? && empty.slots == map[] && SameFrame(empty, g)
    requires Consistent(r.grid) && IdsBelow(r.grid, r.next) && SameFrame(r.grid, empty)
    requires forall k :: k in coords && InBounds(empty, k) ==> k in r.grid.slots
    requires forall k: Coord :: 0 <= k.x < g.width && 0 <= k.y < g.height ==> k in coords
    requires FreshOrKept(empty, r.grid, pick, next)
    requires |sp.palette| > 0 ==> forall k :: pick(k) in sp.palette
    ensures FreshGrid(g, sp, next, r)
  {
  }
}

=== FILE: grid.dfy ===
/**
 The grid store (Grid2D): a bounded width x height partial map from grid
 coordinates to cells, and the affine maps between grid and world space.

 The storage primitives of the unseen base class GridSystem2D
 (TryGetGridObject, AddGridObject, RemoveGridObject) are modelled as the
 bounds-checked map operations Occupied, Put and Erase.
 */
module GridStore {
  import opened Optional
  import opened Geometry
  import opened Cells

  type NonZeroReal = r: real | r != 0.0 witness 1.0

  /** Grid size, cell size (CellSizeO), world origin (transform.position) and the occupied slots. */
  datatype Grid = Grid(width: nat, height: nat, cellW: NonZeroReal, cellH: NonZeroReal, origin: Vec3,
                       slots: map<Coord, Cell>)

  predicate InBounds(g: Grid, k: Coord) {
    0 <= k.x < g.width && 0 <= k.y < g.height
  }

  /** Two grids that differ at most in their slots. */
  predicate SameFrame(a: Grid, b: Grid) {
    a.(slots := b.slots) == b
  }

  /** TryGetGridObject succeeds. */
  predicate Occupied(g: Grid, k: Coord) {
    InBounds(g, k) && k in g.slots
  }

  /** AddGridObject: stores the reference as given, leaving out-of-range coordinates alone. */
  function Put(g: Grid, k: Coord, c: Cell): Grid {
    if InBounds(g, k) then g.(slots := g.slots[k := c]) else g
  }

  /** RemoveGridObject */
  function Erase(g: Grid, k: Coord): Grid {
    g.(slots := g.slots - {k})
  }

  /** The set of cell identities currently placed in the grid. */
  function Ids(g: Grid): set<nat> {
    set k | k in g.slots :: g.slots[k].id
  }

  /**
   Placement bookkeeping: every stored cell lies inside the grid and records
   the slot that holds it, and no cell is placed in two slots.
   */
  ghost predicate Consistent(g: Grid) {
    && (forall k :: k in g.slots ==> InBounds(g, k) && g.slots[k].pos == k)
    && (forall k1, k2 :: k1 in g.slots && k2 in g.slots && g.slots[k1].id == g.slots[k2].id ==> k1 == k2)
  }

  /** Every placed identity is below `next`, the first identity not yet handed out. */
  ghost predicate IdsBelow(g: Grid, next: nat) {
    forall k :: k in g.slots ==> g.slots[k].id < next
  }

  // ----- coordinate maps

  /** Mathf.Clamp on ints: below min gives min, otherwise above max gives max. */
  function Clamp(v: int, lo: int, hi: int): int {
    if v < lo then lo else if v > hi then hi else v
  }

  /** One axis of GetWorldPosition: the lower edge of cell i of n cells of width size centred on o, or its middle. */
  function AxisWorld(i: int, n: nat, size: real, o: real, snapToGrid: bool): real {
    var edge := (i as real - n as real / 2.0) * size + o;
    if snapToGrid then edge + size * 0.5 else edge
  }

  /** One axis of GetGridPosition: invert the affine map, floor, then clamp into 0 .. n-1. */
  function AxisGrid(v: real, n: nat, size: NonZeroReal, o: real): (r: int)
    ensures n >= 1 ==> 0 <= r < n
  {
    Clamp(((v - o) / size + n as real / 2.0).Floor, 0, n - 1)
  }

  /** GetWorldPosition: the lower corner of slot (x, y), or its centre when snapToGrid holds. */
  function WorldPosition(g: Grid, x: int, y: int, snapToGrid: bool): Vec3 {
    Vec3(AxisWorld(x, g.width, g.cellW, g.origin.x, snapToGrid),
         AxisWorld(y, g.height, g.cellH, g.origin.y, snapToGrid),
         0.0 + g.origin.z)
  }

  /** GetGridPosition: invert the affine map, floor, then clamp into the grid. */
  function GridPosition(g: Grid, p: Vec3): (r: Coord)
    ensures g.width >= 1 && g.height >= 1 ==> InBounds(g, r)
    ensures g.width >= 1 ==> 0 <= r.x < g.width
    ensures g.height >= 1 ==> 0 <= r.y < g.height
  {
    Coord(AxisGrid(p.x, g.width, g.cellW, g.origin.x), AxisGrid(p.y, g.height, g.cellH, g.origin.y))
  }

  /** SnapWorldPosition: the centre of the slot a point resolves to. */
  function Snap(g: Grid, p: Vec3): Vec3 {
    var k := GridPosition(g, p);
    WorldPosition(g, k.x, k.y, true)
  }

  /** The inverse map undoes the affine part exactly: a slot's centre or corner maps back to that slot. */
  lemma RoundTrip(g: Grid, x: int, y: int, snapToGrid: bool)
    requires InBounds(g, Coord(x, y))
    ensures GridPosition(g, WorldPosition(g, x, y, snapToGrid)) == Coord(x, y)
  {
    AxisRoundTrip(x, g.width, g.cellW, g.origin.x, snapToGrid);
    AxisRoundTrip(y, g.height, g.cellH, g.origin.y, snapToGrid);
  }

  /** One axis of the round trip: the lower edge or the middle of cell i maps back to i. */
  lemma AxisRoundTrip(i: int, n: nat, size: NonZeroReal, o: real, snapToGrid: bool)
    requires 0 <= i < n
    ensures AxisGrid(AxisWorld(i, n, size, o, snapToGrid), n, size, o) == i
  {
    var off := if snapToGrid then 0.5 else 0.0;
    var a := i as real - n as real / 2.0;
    var v := AxisWorld(i, n, size, o, snapToGrid);
    Distribute(a, off, size);
    assert v - o == (a + off) * size;
    DivCancel(v - o, a + off, size);
    var t := (v - o) / size + n as real / 2.0;
    assert t == i as real + off;
    FloorShift(i, off);
  }

  lemma Distribute(a: real, b: real, c: real)
    ensures (a + b) * c == a * c + c * b
  {
  }

  /** Dividing b = a * c by c gives back a. */
  lemma DivCancel(b: real, a: real, c: real)
    requires c != 0.0 && b == a * c
    ensures b / c == a
  {
  }

  lemma FloorShift(i: int, off: real)
    requires 0.0 <= off < 1.0
    ensures (i as real + off).Floor == i
  {
  }

  /** Snapping lands on a slot centre that snaps to itself and resolves to the same slot. */
  lemma SnapIdempotent(g: Grid, p: Vec3)
    requires g.width >= 1 && g.height >= 1
    ensures GridPosition(g, Snap(g, p)) == GridPosition(g, p)
    ensures Snap(g, Snap(g, p)) == Snap(g, p)
  {
    var k := GridPosition(g, p);
    RoundTrip(g, k.x, k.y, true);
  }

  /** Any point beyond the right edge of the grid resolves to the rightmost column. */
  lemma BeyondRightEdgeClampsToLastColumn(g: Grid, p: Vec3)
    requires g.width >= 1 && g.height >= 1 && g.cellW > 0.0
    requires p.x >= WorldPosition(g, g.width, 0, false).x
    ensures GridPosition(g, p).x == g.width - 1
  {
    var relX := (p.x - g.origin.x) / g.cellW;
    var edge := g.width as real - g.width as real / 2.0;
    assert p.x - g.origin.x >= edge * g.cellW;
    assert relX >= edge;
    assert (relX + g.width as real / 2.0).Floor >= g.width;
  }

  // ----- Grid2D's public operations

  /** GetCellAt: the cell in slot (x, y), or null. */
  function GetCellAt(g: Grid, x: int, y: int): Option<Cell> {
    if Occupied(g, Coord(x, y)) then Some(g.slots[Coord(x, y)]) else None
  }

  /** RemoveCell(x, y) */
  function RemoveAt(g: Grid, x: int, y: int): (r: Grid)
    ensures !InBounds(g, Coord(x, y)) ==> r == g
    ensures InBounds(g, Coord(x, y)) ==> Coord(x, y) !in r.slots
    ensures SameFrame(r, g)
    ensures forall k :: k != Coord(x, y) ==> (k in r.slots <==> k in g.slots)
    ensures forall k :: k != Coord(x, y) && k in g.slots ==> r.slots[k] == g.slots[k]
  {
    if !InBounds(g, Coord(x, y)) then g else Erase(g, Coord(x, y))
  }

  /** RemoveCell(cell): empties the slot the cell records, leaving the cell's own record untouched. */
  function RemoveCell(g: Grid, cell: Option<Cell>): (r: Grid)
    ensures cell.None? || !InBounds(g, cell.value.pos) ==> r == g
    ensures cell.Some? && InBounds(g, cell.value.pos) ==> cell.value.pos !in r.slots
    ensures SameFrame(r, g)
    ensures forall k :: (cell.None? || k != cell.value.pos) ==> (k in r.slots <==> k in g.slots)
    ensures forall k :: (cell.None? || k != cell.value.pos) && k in g.slots ==> r.slots[k] == g.slots[k]
  {
    if cell.None? then g else RemoveAt(g, cell.value.pos.x, cell.value.pos.y)
  }

  /** AddCell: a null cell or an out-of-range slot changes nothing; otherwise the cell records the slot and occupies it. */
  function AddCell(g: Grid, cell: Option<Cell>, x: int, y: int): (r: Grid)
    ensures cell.None? || !InBounds(g, Coord(x, y)) ==> r == g
    ensures cell.Some? && InBounds(g, Coord(x, y)) ==>
              Coord(x, y) in r.slots && r.slots[Coord(x, y)] == cell.value.(pos := Coord(x, y))
    ensures SameFrame(r, g)
    ensures forall k :: k != Coord(x, y) ==> (k in r.slots <==> k in g.slots)
    ensures forall k :: k != Coord(x, y) && k in g.slots ==> r.slots[k] == g.slots[k]
  {
    if cell.None? then g
    else if !InBounds(g, Coord(x, y)) then g
    else Put(g, Coord(x, y), cell.value.(pos := Coord(x, y)))
  }

  /** Reading a slot right after adding to it yields the added cell, now recording that slot. */
  lemma GetAfterAdd(g: Grid, c: Cell, x: int, y: int)
    requires InBounds(g, Coord(x, y))
    ensures GetCellAt(AddCell(g, Some(c), x, y), x, y) == Some(c.(pos := Coord(x, y)))
    ensures GetCellAt(RemoveAt(AddCell(g, Some(c), x, y), x, y), x, y) == None
  {
  }

  /** Adding into an empty slot and removing it again restores the grid. */
  lemma AddThenRemove(g: Grid, c: Cell, x: int, y: int)
    requires InBounds(g, Coord(x, y)) && Coord(x, y) !in g.slots
    ensures RemoveAt(AddCell(g, Some(c), x, y), x, y) == g
  {
    var r := RemoveAt(AddCell(g, Some(c), x, y), x, y);
    assert r.slots == g.slots;
  }

  /** A placed cell taken out by RemoveCell can be put back from its own record, restoring the grid. */
  lemma RemoveThenRestore(g: Grid, c: Cell)
    requires Consistent(g)
    requires c.pos in g.slots && g.slots[c.pos] == c
    ensures AddCell(RemoveCell(g, Some(c)), Some(c), c.pos.x, c.pos.y) == g
  {
    var r := AddCell(RemoveCell(g, Some(c)), Some(c), c.pos.x, c.pos.y);
    assert r.slots == g.slots;
  }

  /** Removing a slot keeps the placement bookkeeping and removes exactly that slot's identity. */
  lemma RemoveKeepsConsistent(g: Grid, x: int, y: int)
    requires Consistent(g)
    ensures Consistent(RemoveAt(g, x, y))
    ensures Coord(x, y) in g.slots ==> Ids(RemoveAt(g, x, y)) == Ids(g) - {g.slots[Coord(x, y)].id}
    ensures Ids(RemoveAt(g, x, y)) <= Ids(g)
  {
    var r := RemoveAt(g, x, y);
    if Coord(x, y) in g.slots {
      var gone := g.slots[Coord(x, y)].id;
      forall i | i in Ids(r) ensures i in Ids(g) - {gone} {
        var k :| k in r.slots && r.slots[k].id == i;
        assert g.slots[k].id == i;
      }
      forall i | i in Ids(g) - {gone} ensures i in Ids(r) {
        var k :| k in g.slots && g.slots[k].id == i;
        assert k != Coord(x, y);
        assert r.slots[k].id == i;
      }
    } else {
      forall i | i in Ids(r) ensures i in Ids(g) {
        var k :| k in r.slots && r.slots[k].id == i;
        assert g.slots[k].id == i;
      }
    }
  }

  /**
   Adding a cell that is not placed anywhere keeps the bookkeeping: its identity
   joins the grid and only the previous occupant of the slot, if any, leaves it.
   */
  lemma AddKeepsConsistent(g: Grid, c: Cell, x: int, y: int)
    requires Consistent(g) && c.id !in Ids(g)
    ensures Consistent(AddCell(g, Some(c), x, y))
    ensures Ids(AddCell(g, Some(c), x, y)) <= Ids(g) + {c.id}
    ensures InBounds(g, Coord(x, y)) ==> c.id in Ids(AddCell(g, Some(c), x, y))
  {
    var r := AddCell(g, Some(c), x, y);
    forall k | k in g.slots ensures g.slots[k].id != c.id {
      assert g.slots[k].id in Ids(g);
    }
    forall i | i in Ids(r) ensures i in Ids(g) + {c.id} {
      var k :| k in r.slots && r.slots[k].id == i;
      if k != Coord(x, y) || !InBounds(g, Coord(x, y)) {
        assert g.slots[k].id == i;
      }
    }
    if InBounds(g, Coord(x, y)) {
      assert r.slots[Coord(x, y)].id == c.id;
    }
  }
}

=== FILE: input.dfy ===
/**
 The input handler (InputHandler): a two-state machine, Idle and Dragging,
 driven by pointer frames, an external cancel request, merge completions and
 the delayed release of the interaction lock (Grid2D.CanInteract).

 The camera work is abstracted away: a frame carries the cell the hit test
 returned (with its world position) and the pointer already projected onto
 the stack's plane.
 */
module Input {
  import opened Optional
  import opened Geometry
  import opened Cells
  import opened GridStore
  import opened Gravity
  import opened Stacks

  /** isDragging, currentStack and lastHoveredCell; isDragging holds exactly when a stack exists. */
  datatype Phase = Idle | Dragging(stack: Stack, lastHovered: Option<Cell>)

  /**
   The handler, the grid and what is in flight between events: the stacks whose
   merge sequence is playing and the delayed calls that will reopen input.
   */
  datatype World = World(grid: Grid, spawner: Spawner, stackSpeed: real, phase: Phase, canInteract: bool,
                         merging: seq<Stack>, unlocks: nat, next: nat)

  /** GetMouseButtonDown / GetMouseButton / GetMouseButtonUp for the frame. */
  datatype Buttons = Buttons(down: bool, held: bool, up: bool)

  datatype Event =
    | Frame(buttons: Buttons, hit: Option<Cell>, hitAt: Vec3, aim: Vec3, dt: real)
    | CancelRequested
    | MergeFinished(index: nat, order: seq<Cell>, roll: Coord -> nat)
    | UnlockTimer

  /** Reference equality of two nullable cells. */
  predicate SameObject(a: Option<Cell>, b: Option<Cell>) {
    (a.None? && b.None?) || (a.Some? && b.Some? && a.value.id == b.value.id)
  }

  // ----- step selection and validation

  /** Choose the unit step in the direction of the larger snapped displacement, or none. */
  function MoveDirection(delta: Vec3): (d: Coord)
    ensures d.x == 0 || d.y == 0
    ensures -1 <= d.x <= 1 && -1 <= d.y <= 1
    ensures d == Coord(0, 0) <==> Abs(delta.x) <= 0.01 && Abs(delta.y) <= 0.01
    ensures d.x != 0 ==> Abs(delta.x) > Abs(delta.y) && (d.x == 1 <==> delta.x > 0.0)
    ensures d.y != 0 ==> Abs(delta.y) >= Abs(delta.x) && (d.y == 1 <==> delta.y > 0.0)
  {
    if Abs(delta.x) > 0.01 || Abs(delta.y) > 0.01 then
      if Abs(delta.x) > Abs(delta.y) then Coord(if delta.x > 0.0 then 1 else -1, 0)
      else Coord(0, if delta.y > 0.0 then 1 else -1)
    else Coord(0, 0)
  }

  /** When the two axes are equally far, the vertical axis wins. */
  lemma TiesGoVertical(delta: Vec3)
    requires Abs(delta.x) == Abs(delta.y) > 0.01
    ensures MoveDirection(delta).x == 0 && MoveDirection(delta).y != 0
  {
  }

  /** CanMoveToPosition */
  function CanMoveToPosition(stack: Option<Stack>, g: Grid, target: Coord): (b: bool)
    ensures stack.None? || stack.value.target.None? ==> !b
    ensures !InBounds(g, target) ==> !b
    ensures stack.Some? && stack.value.target.Some? && InBounds(g, target) && target !in g.slots ==> b
    ensures stack.Some? && InBounds(g, target) && target in g.slots ==>
              (b <==> stack.value.target.Some? && g.slots[target].color == stack.value.target)
  {
    if stack.None? || stack.value.target.None? then false
    else if !InBounds(g, target) then false
    else
      var occupant := GetCellAt(g, target.x, target.y);
      if occupant.Some? then occupant.value.color == stack.value.target else true
  }

  /** A slot the stack may enter is empty or holds a cell the stack would absorb. */
  lemma CanMoveMeansAbsorbable(s: Stack, g: Grid, target: Coord)
    requires CanMoveToPosition(Some(s), g, target)
    ensures InBounds(g, target)
    ensures target in g.slots ==> CanAddCell(s, GetCellAt(g, target.x, target.y))
  {
  }

  /** The step the stack tries to take towards the pointer. */
  function Heading(g: Grid, s: Stack, aim: Vec3): Coord {
    MoveDirection(Minus(Snap(g, aim), Snap(g, s.position)))
  }

  /** The slot the stack tries to enter. */
  function NextSlot(g: Grid, s: Stack, aim: Vec3): Coord {
    var at := GridPosition(g, Snap(g, s.position));
    var d := Heading(g, s, aim);
    Coord(at.x + d.x, at.y + d.y)
  }

  /** allowedWorldPos: the pointer when there is no step or the step is allowed, else the current slot's centre. */
  function AllowedPosition(g: Grid, s: Stack, aim: Vec3): (r: Vec3)
    ensures Heading(g, s, aim) == Coord(0, 0) ==> r == aim
    ensures Heading(g, s, aim) != Coord(0, 0) && CanMoveToPosition(Some(s), g, NextSlot(g, s, aim)) ==> r == aim
    ensures Heading(g, s, aim) != Coord(0, 0) && !CanMoveToPosition(Some(s), g, NextSlot(g, s, aim)) ==>
              r == Snap(g, s.position)
  {
    var current := Snap(g, s.position);
    if Heading(g, s, aim) == Coord(0, 0) then aim
    else if CanMoveToPosition(Some(s), g, NextSlot(g, s, aim)) then aim
    else current
  }

  /** A blocked stack stalls: it is sent to the centre of the slot it is already over. */
  lemma BlockedStalls(g: Grid, s: Stack, aim: Vec3)
    requires g.width >= 1 && g.height >= 1
    requires AllowedPosition(g, s, aim) != aim
    ensures GridPosition(g, AllowedPosition(g, s, aim)) == GridPosition(g, s.position)
    ensures Heading(g, s, aim) != Coord(0, 0)
    ensures !CanMoveToPosition(Some(s), g, NextSlot(g, s, aim))
  {
    SnapIdempotent(g, s.position);
  }

  /**
   A pointer that resolves to the slot the stack is over is followed freely:
   the two snapped points coincide, so no step is validated. With the clamp in
   GetGridPosition this includes every pointer position beyond the grid edge
   next to the stack's slot, so the stack follows the pointer off the grid.
   */
  lemma SameSlotFollowsPointer(g: Grid, s: Stack, aim: Vec3)
    requires GridPosition(g, aim) == GridPosition(g, s.position)
    ensures Heading(g, s, aim) == Coord(0, 0)
    ensures AllowedPosition(g, s, aim) == aim
  {
  }

  /**
   The off-grid case: a stack centred on the rightmost slot of row y follows a
   pointer that is level with it and any distance beyond the right edge.
   */
  lemma RightEdgeDoesNotStall(g: Grid, s: Stack, y: int, beyond: real, z: real)
    requires g.width >= 1 && 0 <= y < g.height && g.cellW > 0.0 && beyond >= 0.0
    requires s.position == WorldPosition(g, g.width - 1, y, true)
    ensures var aim := Vec3(WorldPosition(g, g.width, y, false).x + beyond, s.position.y, z);
      AllowedPosition(g, s, aim) == aim
  {
    var aim := Vec3(WorldPosition(g, g.width, y, false).x + beyond, s.position.y, z);
    RoundTrip(g, g.width - 1, y, true);
    BeyondRightEdgeClampsToLastColumn(g, aim);
    assert GridPosition(g, aim) == GridPosition(g, s.position);
    SameSlotFollowsPointer(g, s, aim);
  }

  // ----- the handler's callbacks

  /** OnDragStart: a hit cell leaves the grid and becomes the first cell of a new stack. */
  function StartDrag(w: World, hit: Option<Cell>, hitAt: Vec3): (r: World)
    ensures hit.None? ==> r == w
    ensures hit.Some? ==> r.phase == Dragging(Stacks.Initialize(Blank, hit, hitAt, w.stackSpeed), hit)
    ensures hit.Some? ==> r.phase.stack.cells == [hit.value] && r.phase.stack.target == hit.value.color
    ensures hit.Some? && InBounds(w.grid, hit.value.pos) ==> hit.value.pos !in r.grid.slots
    ensures r.canInteract == w.canInteract && r.merging == w.merging && r.next == w.next
  {
    if hit.None? then w
    else
      var g := RemoveCell(w.grid, hit);
      var stack := Stacks.Initialize(Blank, hit, hitAt, w.stackSpeed);
      w.(grid := g, phase := Dragging(stack, hit))
  }

  /** The cell OnDragging finds under allowedWorldPos. */
  function Hovered(g: Grid, allowed: Vec3): Option<Cell> {
    var probe := GridPosition(g, allowed);
    GetCellAt(g, probe.x, probe.y)
  }

  /** Whether OnDragging absorbs the hovered cell into the (already moved) stack. */
  predicate Absorbs(hovered: Option<Cell>, last: Option<Cell>, moved: Stack) {
    hovered.Some? && !SameObject(hovered, last) && CanAddCell(moved, hovered)
  }

  /** The second half of OnDragging: the stack has moved; take the hovered cell if it is acceptable. */
  function Absorb(w: World, moved: Stack, last: Option<Cell>, hovered: Option<Cell>): (r: World)
    ensures r.phase.Dragging? && r.phase.stack.position == moved.position
    ensures Absorbs(hovered, last, moved) ==>
              && r.phase.stack.cells == moved.cells + [hovered.value]
              && r.phase.lastHovered == hovered
              && r.grid == RemoveCell(w.grid, hovered)
    ensures !Absorbs(hovered, last, moved) ==>
              r.phase.stack == moved && r.phase.lastHovered == last && r.grid == w.grid
    ensures r.canInteract == w.canInteract && r.merging == w.merging && r.next == w.next
  {
    if Absorbs(hovered, last, moved) then
      w.(grid := RemoveCell(w.grid, hovered), phase := Dragging(Stacks.AddCell(moved, hovered), hovered))
    else
      w.(phase := Dragging(moved, last))
  }

  /**
   OnDragging: ignore a pointer projected to zero; otherwise move the stack
   towards the allowed position and absorb the hovered cell when it is a new,
   acceptable one.
   */
  function Drag(w: World, aim: Vec3, dt: real): World {
    match w.phase
    case Idle => w
    case Dragging(s, last) =>
      if ApproxEqual(aim, Origin) then w
      else
        var allowed := AllowedPosition(w.grid, s, aim);
        Absorb(w, UpdatePosition(s, allowed, dt), last, Hovered(w.grid, allowed))
  }

  /**
   Absorption: a hovered cell is taken exactly when it exists, is not the last
   hovered cell and the stack accepts it; it then leaves the grid and is
   appended to the stack. Otherwise only the stack's position changes.
   */
  lemma DragAbsorbs(w: World, aim: Vec3, dt: real)
    requires Consistent(w.grid)
    requires w.phase.Dragging? && !ApproxEqual(aim, Origin)
    ensures var s := w.phase.stack;
      var allowed := AllowedPosition(w.grid, s, aim);
      var hovered := Hovered(w.grid, allowed);
      var r := Drag(w, aim, dt);
      && r.phase.Dragging?
      && r.phase.stack.position == UpdatePosition(s, allowed, dt).position
      && (Absorbs(hovered, w.phase.lastHovered, s) ==>
            && r.phase.stack.cells == s.cells + [hovered.value]
            && r.phase.lastHovered == hovered
            && hovered.value.pos !in r.grid.slots)
      && (!Absorbs(hovered, w.phase.lastHovered, s) ==>
            && r.phase.stack.cells == s.cells
            && r.phase.lastHovered == w.phase.lastHovered
            && r.grid == w.grid)
  {
    var s := w.phase.stack;
    var allowed := AllowedPosition(w.grid, s, aim);
    var moved := UpdatePosition(s, allowed, dt);
    var hovered := Hovered(w.grid, allowed);
    assert Drag(w, aim, dt) == Absorb(w, moved, w.phase.lastHovered, hovered);
    assert Absorbs(hovered, w.phase.lastHovered, s) == Absorbs(hovered, w.phase.lastHovered, moved);
    HoveredIsPlaced(w.grid, allowed);
  }

  /** The hovered cell of a consistent grid is placed, inside the grid, in the slot it records. */
  lemma HoveredIsPlaced(g: Grid, p: Vec3)
    requires Consistent(g)
    ensures Hovered(g, p).Some? ==>
              var c := Hovered(g, p).value;
              InBounds(g, c.pos) && c.pos in g.slots && g.slots[c.pos] == c && c.id in Ids(g)
  {
    var probe := GridPosition(g, p);
    if Hovered(g, p).Some? {
      assert g.slots[probe] == Hovered(g, p).value;
    }
  }

  /** A tick whose projected pointer is (approximately) zero does nothing. */
  lemma ZeroAimIgnored(w: World, dt: real)
    ensures Drag(w, Origin, dt) == w
  {
  }

  /** OnDragEnd */
  function EndDrag(w: World): (r: World)
    ensures r.phase == Idle
    ensures r.canInteract == w.canInteract && r.next == w.next && r.unlocks == w.unlocks
  {
    match w.phase
    case Idle => w
    case Dragging(s, _) =>
      if |s.cells| >= 2 then
        w.(phase := Idle, merging := w.merging + [s])
      else if |s.cells| == 1 then
        var c := s.cells[0];
        w.(phase := Idle, grid := GridStore.AddCell(w.grid, Some(c), c.pos.x, c.pos.y))
      else
        w.(phase := Idle)
  }

  /**
   The merge threshold: two or more cells start a merge and leave the grid
   alone (gravity runs only when that merge finishes); one cell goes back to
   its recorded slot with no merge; in every case the handler is Idle.
   */
  lemma EndDragThreshold(w: World)
    requires w.phase.Dragging?
    ensures var s := w.phase.stack;
      var r := EndDrag(w);
      && (|s.cells| >= 2 ==> r.grid == w.grid && r.merging == w.merging + [s])
      && (|s.cells| == 1 && InBounds(w.grid, s.cells[0].pos) ==>
            s.cells[0].pos in r.grid.slots && r.grid.slots[s.cells[0].pos] == s.cells[0])
      && (|s.cells| < 2 ==> r.merging == w.merging)
  {
  }

  /** A single-cell drag released without absorbing anything gives back exactly the grid it started from. */
  lemma SingleCellDragRestores(w: World, c: Cell, hitAt: Vec3)
    requires Consistent(w.grid)
    requires c.pos in w.grid.slots && w.grid.slots[c.pos] == c
    ensures EndDrag(StartDrag(w, Some(c), hitAt)).grid == w.grid
    ensures EndDrag(StartDrag(w, Some(c), hitAt)).merging == w.merging
  {
    RemoveThenRestore(w.grid, c);
  }

  /** The cells of a cancelled stack are put back in order, each at the slot it records. */
  function RestoreAll(g: Grid, cells: seq<Cell>): Grid
    decreases |cells|
  {
    if |cells| == 0 then g
    else
      var c := cells[|cells| - 1];
      GridStore.AddCell(RestoreAll(g, cells[..|cells| - 1]), Some(c), c.pos.x, c.pos.y)
  }

  /** CancelDrag */
  function CancelDrag(w: World): (r: World)
    ensures r.phase == Idle
    ensures r.merging == w.merging && r.canInteract == w.canInteract && r.next == w.next
  {
    match w.phase
    case Idle => w
    case Dragging(s, _) => w.(phase := Idle, grid := RestoreAll(w.grid, s.cells))
  }

  /** The identities of a sequence of cells. */
  function IdSet(cells: seq<Cell>): set<nat> {
    set i | 0 <= i < |cells| :: cells[i].id
  }

  ghost predicate DistinctIds(cells: seq<Cell>) {
    forall i, j :: 0 <= i < j < |cells| ==> cells[i].id != cells[j].id
  }

  ghost predicate DistinctSlots(cells: seq<Cell>) {
    forall i, j :: 0 <= i < j < |cells| ==> cells[i].pos != cells[j].pos
  }

  /** Restoring held cells that are placed nowhere keeps the grid consistent and adds only their identities. */
  lemma {:induction false} RestoreAllConsistent(g: Grid, cells: seq<Cell>)
    requires Consistent(g) && DistinctIds(cells)
    requires forall i :: 0 <= i < |cells| ==> cells[i].id !in Ids(g)
    ensures Consistent(RestoreAll(g, cells))
    ensures Ids(RestoreAll(g, cells)) <= Ids(g) + IdSet(cells)
    decreases |cells|
  {
    if |cells| > 0 {
      var p := cells[..|cells| - 1];
      var c := cells[|cells| - 1];
      RestoreAllConsistent(g, p);
      assert c.id !in IdSet(p);
      AddKeepsConsistent(RestoreAll(g, p), c, c.pos.x, c.pos.y);
      assert IdSet(cells) == IdSet(p) + {c.id};
    }
  }

  /** Restoring touches only the slots the held cells record, and leaves the grid's frame alone. */
  lemma {:induction false} RestoreAllFrame(g: Grid, cells: seq<Cell>)
    ensures SameFrame(RestoreAll(g, cells), g)
    ensures forall k :: (forall i :: 0 <= i < |cells| ==> cells[i].pos != k) ==>
              (k in RestoreAll(g, cells).slots <==> k in g.slots)
    ensures forall k :: k in g.slots && (forall i :: 0 <= i < |cells| ==> cells[i].pos != k) ==>
              RestoreAll(g, cells).slots[k] == g.slots[k]
    decreases |cells|
  {
    if |cells| > 0 {
      RestoreAllFrame(g, cells[..|cells| - 1]);
    }
  }

  /** When their recorded slots differ, every held cell with an in-range slot is found there after restoring. */
  lemma {:induction false} RestoreAllPlaces(g: Grid, cells: seq<Cell>)
    requires DistinctSlots(cells)
    ensures forall i :: 0 <= i < |cells| && InBounds(g, cells[i].pos) ==>
              cells[i].pos in RestoreAll(g, cells).slots && RestoreAll(g, cells).slots[cells[i].pos] == cells[i]
    decreases |cells|
  {
    if |cells| > 0 {
      var p := cells[..|cells| - 1];
      var c := cells[|cells| - 1];
      RestoreAllPlaces(g, p);
      RestoreAllFrame(g, p);
      var g1 := RestoreAll(g, p);
      forall i | 0 <= i < |cells| && InBounds(g, cells[i].pos)
        ensures cells[i].pos in RestoreAll(g, cells).slots && RestoreAll(g, cells).slots[cells[i].pos] == cells[i]
      {
        if i < |cells| - 1 {
          assert cells[i] == p[i];
          assert cells[i].pos != c.pos;
        }
      }
    }
  }

  /** CancelDrag hands every held cell back to its recorded slot and leaves the handler Idle with no stack. */
  lemma CancelRestores(w: World)
    requires w.phase.Dragging?
    requires Consistent(w.grid) && DistinctIds(w.phase.stack.cells)
    requires forall i :: 0 <= i < |w.phase.stack.cells| ==> w.phase.stack.cells[i].id !in Ids(w.grid)
    requires DistinctSlots(w.phase.stack.cells)
    ensures var cells := w.phase.stack.cells;
      var r := CancelDrag(w);
      && r.phase == Idle
      && Consistent(r.grid)
      && (forall i :: 0 <= i < |cells| && InBounds(w.grid, cells[i].pos) ==>
            cells[i].pos in r.grid.slots && r.grid.slots[cells[i].pos] == cells[i])
  {
    RestoreAllConsistent(w.grid, w.phase.stack.cells);
    RestoreAllPlaces(w.grid, w.phase.stack.cells);
  }

  // ----- the event loop

  /** HandleInput: press starts a drag, a held button drags, a release ends the drag. */
  function HandleInput(w: World, b: Buttons, hit: Option<Cell>, hitAt: Vec3, aim: Vec3, dt: real): World {
    if b.down then StartDrag(w, hit, hitAt)
    else if b.held && w.phase.Dragging? then Drag(w, aim, dt)
    else if b.up && w.phase.Dragging? then EndDrag(w)
    else w
  }

  /** Grid2D.UpdatePositions as the merge callback runs it: the lock closes, then gravity resolves. */
  function ResolveGravity(w: World, order: seq<Cell>, roll: Coord -> nat): (r: World)
    ensures !r.canInteract && r.unlocks == w.unlocks + 1
    ensures r.phase == w.phase && r.merging == w.merging
  {
    var settled := UpdatePositions(w.grid, w.spawner, order, roll, w.next);
    w.(canInteract := false, unlocks := w.unlocks + 1, grid := settled.grid, next := settled.next)
  }

  /** One event: Update (gated by the lock), CancelDrag, a merge's onComplete, or the lock's delayed release. */
  function Step(w: World, e: Event): World {
    match e
    case Frame(b, hit, hitAt, aim, dt) =>
      if !w.canInteract then w else HandleInput(w, b, hit, hitAt, aim, dt)
    case CancelRequested => CancelDrag(w)
    case MergeFinished(i, order, roll) =>
      if i >= |w.merging| then w
      else ResolveGravity(w.(merging := w.merging[..i] + w.merging[i + 1..]), order, roll)
    case UnlockTimer =>
      if w.unlocks == 0 then w else w.(canInteract := true, unlocks := w.unlocks - 1)
  }

  /** While the lock is held, no frame changes anything. */
  lemma LockedFramesInert(w: World, e: Event)
    requires !w.canInteract && e.Frame?
    ensures Step(w, e) == w
  {
  }

  /**
   The lock: a finished merge always closes it before input can continue, and
   only the delayed release reopens it.
   */
  lemma LockDiscipline(w: World, e: Event)
    ensures e.MergeFinished? && e.index < |w.merging| ==> !Step(w, e).canInteract
    ensures !e.UnlockTimer? && !w.canInteract ==> !Step(w, e).canInteract
    ensures Step(w, e).canInteract && !w.canInteract ==> e.UnlockTimer? && w.unlocks > 0
  {
  }

  /** Gravity runs only when a merge finishes: no other event touches the lock count or the merge queue's head. */
  lemma GravityOnlyOnMerge(w: World, e: Event)
    ensures Step(w, e).unlocks > w.unlocks ==> e.MergeFinished? && e.index < |w.merging|
    ensures e.MergeFinished? && e.index < |w.merging| ==> |Step(w, e).merging| == |w.merging| - 1
  {
  }

  // ----- the placed / held invariant

  /** The held cells of a live stack: placed nowhere, distinct, recorded inside the grid, and of one colour. */
  ghost predicate HeldOk(g: Grid, s: Stack, last: Option<Cell>, next: nat) {
    && |s.cells| >= 1
    && SameColour(s)
    && DistinctIds(s.cells)
    && (forall i :: 0 <= i < |s.cells| ==>
          s.cells[i].id < next && InBounds(g, s.cells[i].pos) && s.cells[i].id !in Ids(g))
    && (last.Some? ==> last.value in s.cells)
  }

  /**
   Every cell is placed in at most one slot, which it records, or held by the
   stack, never both; identities still to be handed out are unused.
   */
  ghost predicate Inv(w: World) {
    && Consistent(w.grid)
    && IdsBelow(w.grid, w.next)
    && (w.phase.Dragging? ==> HeldOk(w.grid, w.phase.stack, w.phase.lastHovered, w.next))
  }

  /** A cell placed in the slot it records. */
  ghost predicate Placed(g: Grid, c: Cell) {
    c.pos in g.slots && g.slots[c.pos] == c
  }

  /**
   A cell whose collider is on, so that the hit test can return it: a placed
   cell, or one that a release over its slot displaced. The displaced cell is
   placed nowhere and not held, and keeps its in-range slot and its identity.
   (Cells of a merging stack have their colliders off too; admitting them
   here only widens what the invariant lemmas cover.)
   */
  ghost predicate Pressable(w: World, c: Cell) {
    || Placed(w.grid, c)
    || (c.id !in Ids(w.grid) && InBounds(w.grid, c.pos) && c.id < w.next && c !in Held(w))
  }

  /** What the external collaborators promise: the hit test returns a cell whose collider is on, and the sort is a sort. */
  ghost predicate Admissible(w: World, e: Event) {
    match e
    case Frame(_, hit, _, _, _) => hit.None? || Pressable(w, hit.value)
    case MergeFinished(_, order, _) => IsRowSort(order, Gather(w.grid))
    case _ => true
  }

  lemma StartDragKeepsInv(w: World, hit: Option<Cell>, hitAt: Vec3)
    requires Inv(w)
    requires hit.None? || Pressable(w, hit.value)
    ensures Inv(StartDrag(w, hit, hitAt))
  {
    if hit.Some? {
      var c := hit.value;
      var g1 := RemoveCell(w.grid, hit);
      RemoveKeepsConsistent(w.grid, c.pos.x, c.pos.y);
      assert g1 == RemoveAt(w.grid, c.pos.x, c.pos.y);
      assert c.id !in Ids(g1) && c.id < w.next && InBounds(g1, c.pos) by {
        if Placed(w.grid, c) {
          assert c.id in Ids(w.grid) && w.grid.slots[c.pos].id < w.next;
        }
      }
      var s := Stacks.Initialize(Blank, hit, hitAt, w.stackSpeed);
      FirstCellHeld(g1, s, c, w.next);
    }
  }

  /** A stack holding just one cell, placed nowhere and below next, is well-formed. */
  lemma FirstCellHeld(g: Grid, s: Stack, c: Cell, next: nat)
    requires s.cells == [c] && SameColour(s)
    requires c.id !in Ids(g) && c.id < next && InBounds(g, c.pos)
    ensures HeldOk(g, s, Some(c), next)
  {
    assert s.cells[0] == c;
  }

  lemma DragKeepsInv(w: World, aim: Vec3, dt: real)
    requires Inv(w)
    ensures Inv(Drag(w, aim, dt))
  {
    if w.phase.Dragging? && !ApproxEqual(aim, Origin) {
      var s := w.phase.stack;
      var allowed := AllowedPosition(w.grid, s, aim);
      var moved := UpdatePosition(s, allowed, dt);
      var hovered := Hovered(w.grid, allowed);
      if Absorbs(hovered, w.phase.lastHovered, moved) {
        var probe := GridPosition(w.grid, allowed);
        assert hovered.value == w.grid.slots[probe] && hovered.value.pos == probe;
        AbsorbKeepsHeld(w.grid, moved, hovered.value, w.phase.lastHovered, w.next);
      }
    }
  }

  /** Moving a placed, acceptable cell from the grid onto a well-formed stack keeps both well-formed. */
  lemma AbsorbKeepsHeld(g: Grid, s: Stack, c: Cell, last: Option<Cell>, next: nat)
    requires Consistent(g) && IdsBelow(g, next) && HeldOk(g, s, last, next)
    requires c.pos in g.slots && g.slots[c.pos] == c && CanAddCell(s, Some(c))
    ensures var g1 := RemoveCell(g, Some(c));
      && Consistent(g1) && IdsBelow(g1, next)
      && HeldOk(g1, Stacks.AddCell(s, Some(c)), Some(c), next)
  {
    RemoveKeepsConsistent(g, c.pos.x, c.pos.y);
    assert c.id in Ids(g);
    var s1 := Stacks.AddCell(s, Some(c));
    assert s1.cells == s.cells + [c];
    forall i | 0 <= i < |s.cells| ensures s.cells[i].id != c.id {
      assert c.id in Ids(g);
    }
  }

  lemma EndDragKeepsInv(w: World)
    requires Inv(w)
    ensures Inv(EndDrag(w))
  {
    if w.phase.Dragging? && |w.phase.stack.cells| == 1 {
      var c := w.phase.stack.cells[0];
      AddKeepsConsistent(w.grid, c, c.pos.x, c.pos.y);
    }
  }

  lemma CancelKeepsInv(w: World)
    requires Inv(w)
    ensures Inv(CancelDrag(w))
  {
    if w.phase.Dragging? {
      var cells := w.phase.stack.cells;
      RestoreAllConsistent(w.grid, cells);
      RestoreAllFrame(w.grid, cells);
      var g := RestoreAll(w.grid, cells);
      forall k | k in g.slots ensures g.slots[k].id < w.next {
        assert g.slots[k].id in Ids(g);
        if g.slots[k].id in Ids(w.grid) {
          var k0 :| k0 in w.grid.slots && w.grid.slots[k0].id == g.slots[k].id;
        } else {
          var i :| 0 <= i < |cells| && cells[i].id == g.slots[k].id;
        }
      }
    }
  }

  lemma ResolveKeepsInv(w: World, order: seq<Cell>, roll: Coord -> nat)
    requires Inv(w) && IsRowSort(order, Gather(w.grid))
    ensures Inv(ResolveGravity(w, order, roll))
  {
    UpdatePositionsSettles(w.grid, w.spawner, order, roll, w.next);
  }

  /**
   The central invariant: whatever happens, as long as the hit test and the
   sort keep their promises, every cell is either placed in exactly the slot
   it records or held by the stack, never both.
   */
  lemma StepKeepsInv(w: World, e: Event)
    requires Inv(w) && Admissible(w, e)
    ensures Inv(Step(w, e))
  {
    match e
    case Frame(b, hit, hitAt, aim, dt) =>
      if w.canInteract {
        if b.down {
          StartDragKeepsInv(w, hit, hitAt);
        } else if b.held && w.phase.Dragging? {
          DragKeepsInv(w, aim, dt);
        } else if b.up && w.phase.Dragging? {
          EndDragKeepsInv(w);
        }
      }
    case CancelRequested =>
      CancelKeepsInv(w);
    case MergeFinished(i, order, roll) =>
      if i < |w.merging| {
        var w1 := w.(merging := w.merging[..i] + w.merging[i + 1..]);
        ResolveKeepsInv(w1, order, roll);
      }
    case UnlockTimer =>
  }

  // ----- accounting: every identity is placed, held, or retired by a merge

  /** The cells the handler is holding: those of the stack being dragged, if any. */
  function Held(w: World): seq<Cell> {
    if w.phase.Dragging? then w.phase.stack.cells else []
  }

  /** The identities the handler answers for: placed in the grid or held by the stack. */
  function Live(w: World): set<nat> {
    Ids(w.grid) + IdSet(Held(w))
  }

  lemma IdSetOne(c: Cell)
    ensures IdSet([c]) == {c.id}
  {
    assert [c][0] == c;
  }

  lemma IdSetSnoc(cells: seq<Cell>, c: Cell)
    ensures IdSet(cells + [c]) == IdSet(cells) + {c.id}
  {
    var t := cells + [c];
    assert t[|cells|] == c;
    forall i | i in IdSet(cells) ensures i in IdSet(t) {
      var j :| 0 <= j < |cells| && cells[j].id == i;
      assert t[j] == cells[j];
    }
  }

  /** A press on a placed cell while Idle moves that cell from the grid into the new stack: nothing appears or vanishes. */
  lemma StartDragConserves(w: World, c: Cell, hitAt: Vec3)
    requires Inv(w) && w.phase.Idle? && Placed(w.grid, c)
    ensures Live(StartDrag(w, Some(c), hitAt)) == Live(w)
  {
    RemoveKeepsConsistent(w.grid, c.pos.x, c.pos.y);
    assert c.id in Ids(w.grid);
    var r := StartDrag(w, Some(c), hitAt);
    assert Held(r) == [c];
    IdSetOne(c);
  }

  /** Dragging moves an absorbed cell from the grid onto the stack: nothing appears or vanishes. */
  lemma DragConserves(w: World, aim: Vec3, dt: real)
    requires Inv(w)
    ensures Live(Drag(w, aim, dt)) == Live(w)
  {
    if w.phase.Dragging? && !ApproxEqual(aim, Origin) {
      var s := w.phase.stack;
      var allowed := AllowedPosition(w.grid, s, aim);
      var moved := UpdatePosition(s, allowed, dt);
      var hovered := Hovered(w.grid, allowed);
      if Absorbs(hovered, w.phase.lastHovered, moved) {
        HoveredIsPlaced(w.grid, allowed);
        var c := hovered.value;
        RemoveKeepsConsistent(w.grid, c.pos.x, c.pos.y);
        IdSetSnoc(moved.cells, c);
      }
    }
  }

  /**
   Releasing: a stack of two or more leaves for the merge and takes exactly
   its own identities along; a single cell released over an empty slot goes
   back to the grid and nothing is lost.
   */
  lemma EndDragAccounts(w: World)
    requires Inv(w) && w.phase.Dragging?
    ensures var cells := w.phase.stack.cells;
      var r := EndDrag(w);
      && (|cells| >= 2 ==> Live(r) == Live(w) - IdSet(cells) && Live(r) !! IdSet(cells))
      && (|cells| == 1 && cells[0].pos !in w.grid.slots ==> Live(r) == Live(w))
  {
    var cells := w.phase.stack.cells;
    var r := EndDrag(w);
    if |cells| >= 2 {
      forall i | i in IdSet(cells) ensures i !in Ids(w.grid) {
        var j :| 0 <= j < |cells| && cells[j].id == i;
      }
    } else if cells[0].pos !in w.grid.slots {
      var c := cells[0];
      AddKeepsConsistent(w.grid, c, c.pos.x, c.pos.y);
      assert IdSet(cells) == {c.id};
      forall i | i in Ids(w.grid) ensures i in Ids(r.grid) {
        var k :| k in w.grid.slots && w.grid.slots[k].id == i;
        assert r.grid.slots[k] == w.grid.slots[k];
      }
    }
  }

  /** Cancelling a stack whose cells record distinct, empty slots hands every one of them back: nothing is lost. */
  lemma CancelConserves(w: World)
    requires Inv(w) && w.phase.Dragging? && DistinctSlots(w.phase.stack.cells)
    requires forall i :: 0 <= i < |w.phase.stack.cells| ==> w.phase.stack.cells[i].pos !in w.grid.slots
    ensures Live(CancelDrag(w)) == Live(w)
  {
    var cells := w.phase.stack.cells;
    var g := RestoreAll(w.grid, cells);
    RestoreAllConsistent(w.grid, cells);
    RestoreAllFrame(w.grid, cells);
    RestoreAllPlaces(w.grid, cells);
    forall i | i in IdSet(cells) ensures i in Ids(g) {
      var j :| 0 <= j < |cells| && cells[j].id == i;
      assert g.slots[cells[j].pos] == cells[j];
    }
    forall i | i in Ids(w.grid) ensures i in Ids(g) {
      var k :| k in w.grid.slots && w.grid.slots[k].id == i;
      assert g.slots[k] == w.grid.slots[k];
    }
  }

  /** Gravity keeps every identity and adds only fresh ones, for the spawned cells. */
  lemma ResolveAccounts(w: World, order: seq<Cell>, roll: Coord -> nat)
    requires Inv(w) && IsRowSort(order, Gather(w.grid))
    ensures var r := ResolveGravity(w, order, roll);
      && Live(w) <= Live(r)
      && (forall i :: i in Live(r) && i !in Live(w) ==> w.next <= i < r.next)
  {
    UpdatePositionsSettles(w.grid, w.spawner, order, roll, w.next);
    var r := ResolveGravity(w, order, roll);
    assert Held(r) == Held(w);
    forall i | i in Live(r) && i !in Live(w) ensures w.next <= i < r.next {
      var k :| k in r.grid.slots && r.grid.slots[k].id == i;
    }
  }

  /**
   The events on which the handler loses no cell: a press that hits a placed
   cell while Idle, a release of one cell over an empty slot, and a cancel
   whose held cells record distinct, empty slots. Every other event is loss
   free as it stands.
   */
  ghost predicate LossFree(w: World, e: Event) {
    match e
    case Frame(b, hit, _, _, _) =>
      w.canInteract ==>
        && (b.down && hit.Some? ==> w.phase.Idle? && Placed(w.grid, hit.value))
        && (!b.down && !b.held && b.up && w.phase.Dragging? && |w.phase.stack.cells| == 1 ==>
              w.phase.stack.cells[0].pos !in w.grid.slots)
    case CancelRequested =>
      w.phase.Dragging? ==>
        && DistinctSlots(w.phase.stack.cells)
        && (forall i :: 0 <= i < |w.phase.stack.cells| ==> w.phase.stack.cells[i].pos !in w.grid.slots)
    case _ => true
  }

  /** The identities an event hands to the merge: the cells of a released stack of two or more. */
  function Retired(w: World, e: Event): set<nat> {
    if e.Frame? && w.canInteract && !e.buttons.down && !e.buttons.held && e.buttons.up
       && w.phase.Dragging? && |w.phase.stack.cells| >= 2
    then IdSet(w.phase.stack.cells)
    else {}
  }

  /**
   Conservation: on a loss-free event every identity stays placed or held,
   except those retired to the merge, which are gone; the only newcomers are
   fresh identities.
   */
  lemma StepAccounts(w: World, e: Event)
    requires Inv(w) && Admissible(w, e) && LossFree(w, e)
    ensures var r := Step(w, e);
      && Live(w) - Retired(w, e) <= Live(r)
      && Retired(w, e) !! Live(r)
      && (forall i :: i in Live(r) && i !in Live(w) ==> w.next <= i < r.next)
  {
    match e
    case Frame(b, hit, hitAt, aim, dt) =>
      if w.canInteract {
        if b.down {
          if hit.Some? {
            StartDragConserves(w, hit.value, hitAt);
          }
        } else if b.held && w.phase.Dragging? {
          DragConserves(w, aim, dt);
        } else if b.up && w.phase.Dragging? {
          EndDragAccounts(w);
        }
      }
    case CancelRequested =>
      if w.phase.Dragging? {
        CancelConserves(w);
      }
    case MergeFinished(i, order, roll) =>
      if i < |w.merging| {
        var w1 := w.(merging := w.merging[..i] + w.merging[i + 1..]);
        ResolveAccounts(w1, order, roll);
      }
    case UnlockTimer =>
  }

  /** Under the invariant the lastHoveredCell test never turns a hovered grid cell away: that cell is always held. */
  lemma LastHoveredNeverPlaced(w: World, aim: Vec3)
    requires Inv(w) && w.phase.Dragging?
    ensures var hovered := Hovered(w.grid, AllowedPosition(w.grid, w.phase.stack, aim));
      hovered.Some? ==> !SameObject(hovered, w.phase.lastHovered)
  {
    var s := w.phase.stack;
    var hovered := Hovered(w.grid, AllowedPosition(w.grid, s, aim));
    if hovered.Some? && w.phase.lastHovered.Some? {
      var probe := GridPosition(w.grid, AllowedPosition(w.grid, s, aim));
      assert hovered.value.id in Ids(w.grid);
      var i :| 0 <= i < |s.cells| && s.cells[i] == w.phase.lastHovered.value;
    }
  }

  // ----- a merge that completes during a later drag

  /**
   Input stays open while a merge sequence plays, so a merge can finish in
   the middle of another drag. With spawning configured, gravity then fills
   every slot, including the ones the held cells record, while the drag goes on.
   */
  lemma MergeDuringDragFillsHeldSlots(w: World, i: nat, order: seq<Cell>, roll: Coord -> nat)
    requires Inv(w) && w.phase.Dragging? && CanSpawn(w.spawner)
    requires i < |w.merging| && IsRowSort(order, Gather(w.grid))
    ensures var r := Step(w, MergeFinished(i, order, roll));
      var cells := w.phase.stack.cells;
      && r.phase == w.phase
      && (forall j :: 0 <= j < |cells| ==> cells[j].pos in r.grid.slots && r.grid.slots[cells[j].pos].id != cells[j].id)
  {
    var w1 := w.(merging := w.merging[..i] + w.merging[i + 1..]);
    UpdatePositionsSettles(w1.grid, w1.spawner, order, roll, w1.next);
    ResolveKeepsInv(w1, order, roll);
    var r := Step(w, MergeFinished(i, order, roll));
    var cells := w.phase.stack.cells;
    forall j | 0 <= j < |cells|
      ensures cells[j].pos in r.grid.slots && r.grid.slots[cells[j].pos].id != cells[j].id
    {
      assert r.grid.slots[cells[j].pos].id in Ids(r.grid);
    }
  }

  // ----- the events that lose a cell

  /**
   A press while a stack is being dragged starts a new stack without handing
   the old one back: the old stack's cells are then neither placed nor held.
   */
  lemma SecondPressAbandonsStack(w: World, c: Cell, hitAt: Vec3)
    requires Inv(w) && w.phase.Dragging? && Placed(w.grid, c)
    ensures var r := StartDrag(w, Some(c), hitAt);
      forall i :: 0 <= i < |Held(w)| ==> Held(w)[i].id in Live(w) && Held(w)[i].id !in Live(r)
  {
    var r := StartDrag(w, Some(c), hitAt);
    RemoveKeepsConsistent(w.grid, c.pos.x, c.pos.y);
    assert c.id in Ids(w.grid);
    assert Held(r) == [c];
    IdSetOne(c);
    forall i | 0 <= i < |Held(w)| ensures Held(w)[i].id in Live(w) && Held(w)[i].id !in Live(r) {
      assert Held(w)[i].id in IdSet(Held(w));
    }
  }

  /**
   Releasing a one-cell stack over an occupied slot replaces the occupant:
   the released cell takes the slot and the occupant is afterwards neither
   placed nor held.
   */
  lemma ReleaseOverwritesOccupant(w: World)
    requires Consistent(w.grid) && w.phase.Dragging? && |w.phase.stack.cells| == 1
    requires w.phase.stack.cells[0].pos in w.grid.slots
    requires w.grid.slots[w.phase.stack.cells[0].pos].id != w.phase.stack.cells[0].id
    ensures var c := w.phase.stack.cells[0];
      var lost := w.grid.slots[c.pos].id;
      var r := EndDrag(w);
      && lost in Ids(w.grid) && lost in Live(w)
      && lost !in Ids(r.grid) && lost !in Live(r)
      && r.grid.slots[c.pos] == c
      && r.phase == Idle
  {
    var c := w.phase.stack.cells[0];
    var lost := w.grid.slots[c.pos].id;
    var r := EndDrag(w);
    forall k | k in r.grid.slots ensures r.grid.slots[k].id != lost {
      if k != c.pos {
        assert r.grid.slots[k] == w.grid.slots[k];
      }
    }
    assert Held(r) == [];
  }

  /**
   The occupant displaced by such a release keeps its collider on. Pressing
   it removes whatever sits at the slot it records, which is now the released
   cell: that cell ends up neither placed nor held, while the invariant holds
   throughout.
   */
  lemma PressOnDisplacedCell(w: World, hitAt: Vec3)
    requires Inv(w) && w.phase.Dragging? && |w.phase.stack.cells| == 1
    requires w.phase.stack.cells[0].pos in w.grid.slots
    ensures var c := w.phase.stack.cells[0];
      var o := w.grid.slots[c.pos];
      var r1 := EndDrag(w);
      var r2 := StartDrag(r1, Some(o), hitAt);
      && Inv(r1) && Pressable(r1, o) && !Placed(r1.grid, o)
      && Inv(r2) && Held(r2) == [o]
      && c.id in Live(r1) && c.id !in Live(r2)
  {
    var c := w.phase.stack.cells[0];
    var o := w.grid.slots[c.pos];
    var r1 := EndDrag(w);
    assert o.id in Ids(w.grid);
    ReleaseOverwritesOccupant(w);
    EndDragKeepsInv(w);
    assert o.pos == c.pos;
    assert Pressable(r1, o);
    StartDragKeepsInv(r1, Some(o), hitAt);
    var r2 := StartDrag(r1, Some(o), hitAt);
    assert c.id in Ids(r1.grid);
    RemoveKeepsConsistent(r1.grid, o.pos.x, o.pos.y);
    assert Held(r2) == [o];
    IdSetOne(o);
  }

  /** After restoring, every slot holds what it held before or one of the restored cells, at the slot that cell records. */
  lemma {:induction false} RestoreAllFrom(g: Grid, cells: seq<Cell>)
    ensures forall k :: k in RestoreAll(g, cells).slots ==>
              || (k in g.slots && RestoreAll(g, cells).slots[k] == g.slots[k])
              || (exists m :: 0 <= m < |cells| && cells[m].pos == k && RestoreAll(g, cells).slots[k] == cells[m])
    decreases |cells|
  {
    if |cells| > 0 {
      var p := cells[..|cells| - 1];
      var c := cells[|cells| - 1];
      RestoreAllFrom(g, p);
      var g1 := RestoreAll(g, p);
      var r := RestoreAll(g, cells);
      forall k | k in r.slots
        ensures || (k in g.slots && r.slots[k] == g.slots[k])
                || (exists m :: 0 <= m < |cells| && cells[m].pos == k && r.slots[k] == cells[m])
      {
        if k == c.pos && InBounds(g1, c.pos) {
          assert c.(pos := c.pos) == c;
          assert r.slots[k] == cells[|cells| - 1];
        } else {
          assert r.slots[k] == g1.slots[k];
          if !(k in g.slots && g1.slots[k] == g.slots[k]) {
            var m :| 0 <= m < |p| && p[m].pos == k && g1.slots[k] == p[m];
            assert cells[m] == p[m];
          }
        }
      }
    }
  }

  /**
   Cancelling over a slot that a merge refilled mid-drag: the last held cell
   overwrites the spawned occupant, which is then neither placed nor held.
   */
  lemma CancelOverwritesOccupant(w: World)
    requires Inv(w) && w.phase.Dragging?
    requires w.phase.stack.cells[|w.phase.stack.cells| - 1].pos in w.grid.slots
    ensures var last := w.phase.stack.cells[|w.phase.stack.cells| - 1];
      var lost := w.grid.slots[last.pos].id;
      lost in Live(w) && lost !in Live(CancelDrag(w))
  {
    var cells := w.phase.stack.cells;
    var last := cells[|cells| - 1];
    var p := last.pos;
    var lost := w.grid.slots[p].id;
    var r := CancelDrag(w);
    assert lost in Ids(w.grid);
    RestoreAllFrom(w.grid, cells);
    RestoreAllFrame(w.grid, cells[..|cells| - 1]);
    assert InBounds(w.grid, p);
    assert r.grid == RestoreAll(w.grid, cells);
    assert last.(pos := last.pos) == last;
    assert r.grid.slots[p] == last;
    forall k | k in r.grid.slots ensures r.grid.slots[k].id != lost {
      if k == p {
        assert last.id !in Ids(w.grid);
      } else if k in w.grid.slots && r.grid.slots[k] == w.grid.slots[k] {
        assert w.grid.slots[k].id != w.grid.slots[p].id;
      } else {
        var m :| 0 <= m < |cells| && cells[m].pos == k && r.grid.slots[k] == cells[m];
        assert cells[m].id !in Ids(w.grid);
      }
    }
    assert Held(r) == [];
  }

  /**
   The refill of a held cell's slot (a merge that finished mid-drag, see
   MergeDuringDragFillsHeldSlots) is a placed cell that the stack does not
   hold. While the stack and the pointer are both over that slot, the next
   drag tick hovers the refill and absorbs it exactly when the stack accepts
   its colour; the stack then holds two cells that record the same slot.
   */
  lemma AbsorbSharesSlot(w: World, i: nat, order: seq<Cell>, roll: Coord -> nat, j: nat, aim: Vec3, dt: real)
    requires Inv(w) && w.phase.Dragging? && CanSpawn(w.spawner)
    requires i < |w.merging| && IsRowSort(order, Gather(w.grid))
    requires j < |w.phase.stack.cells|
    requires GridPosition(w.grid, w.phase.stack.position) == w.phase.stack.cells[j].pos
    requires GridPosition(w.grid, aim) == w.phase.stack.cells[j].pos && !ApproxEqual(aim, Origin)
    ensures var r1 := Step(w, MergeFinished(i, order, roll));
      var s := w.phase.stack;
      var cells := s.cells;
      && r1.phase == w.phase
      && cells[j].pos in r1.grid.slots
      && var h := r1.grid.slots[cells[j].pos];
         var r2 := Drag(r1, aim, dt);
         && Placed(r1.grid, h) && h.id !in IdSet(cells)
         && Hovered(r1.grid, AllowedPosition(r1.grid, s, aim)) == Some(h)
         && (CanAddCell(s, Some(h)) ==>
               && r2.phase.stack.cells == cells + [h]
               && var held := r2.phase.stack.cells;
                  j < |held| - 1 && held[j].pos == held[|held| - 1].pos && !DistinctSlots(held))
         && (!CanAddCell(s, Some(h)) ==> r2.phase.stack.cells == cells && r2.grid == r1.grid)
  {
    var r1 := Step(w, MergeFinished(i, order, roll));
    var cells := w.phase.stack.cells;
    MergeDuringDragFillsHeldSlots(w, i, order, roll);
    var w1 := w.(merging := w.merging[..i] + w.merging[i + 1..]);
    UpdatePositionsSettles(w1.grid, w1.spawner, order, roll, w1.next);
    ResolveKeepsInv(w1, order, roll);
    assert r1.grid.(slots := w.grid.slots) == w.grid;
    DragHoversRefill(r1, j, aim, dt);
  }

  /** The drag-tick half of AbsorbSharesSlot, for any world whose held cell j's slot is occupied. */
  lemma DragHoversRefill(r1: World, j: nat, aim: Vec3, dt: real)
    requires Inv(r1) && r1.phase.Dragging? && j < |r1.phase.stack.cells|
    requires r1.phase.stack.cells[j].pos in r1.grid.slots
    requires GridPosition(r1.grid, r1.phase.stack.position) == r1.phase.stack.cells[j].pos
    requires GridPosition(r1.grid, aim) == r1.phase.stack.cells[j].pos && !ApproxEqual(aim, Origin)
    ensures var s := r1.phase.stack;
      var cells := s.cells;
      var h := r1.grid.slots[cells[j].pos];
      var r2 := Drag(r1, aim, dt);
      && Placed(r1.grid, h) && h.id !in IdSet(cells)
      && Hovered(r1.grid, AllowedPosition(r1.grid, s, aim)) == Some(h)
      && (CanAddCell(s, Some(h)) ==>
            && r2.phase.stack.cells == cells + [h]
            && var held := r2.phase.stack.cells;
               j < |held| - 1 && held[j].pos == held[|held| - 1].pos && !DistinctSlots(held))
      && (!CanAddCell(s, Some(h)) ==> r2.phase.stack.cells == cells && r2.grid == r1.grid)
  {
    var s := r1.phase.stack;
    var cells := s.cells;
    var h := r1.grid.slots[cells[j].pos];
    assert h.pos == cells[j].pos;
    assert h.id in Ids(r1.grid);
    forall m | 0 <= m < |cells| ensures cells[m].id != h.id {
      assert cells[m].id !in Ids(r1.grid);
    }
    SameSlotFollowsPointer(r1.grid, s, aim);
    assert Hovered(r1.grid, AllowedPosition(r1.grid, s, aim)) == Some(h);
    if r1.phase.lastHovered.Some? {
      var m :| 0 <= m < |cells| && cells[m] == r1.phase.lastHovered.value;
    }
    DragAbsorbs(r1, aim, dt);
    if CanAddCell(s, Some(h)) {
      var held := Drag(r1, aim, dt).phase.stack.cells;
      assert held[j] == cells[j] && held[|held| - 1] == h;
    }
  }

  /**
   Cancelling a stack with two cells that record the same slot puts both back
   in order, so the later overwrites the earlier, which is then neither
   placed nor held.
   */
  lemma CancelOverwritesSharedSlot(w: World, i: nat)
    requires Inv(w) && w.phase.Dragging?
    requires i < |w.phase.stack.cells| - 1
    requires w.phase.stack.cells[i].pos == w.phase.stack.cells[|w.phase.stack.cells| - 1].pos
    ensures var lost := w.phase.stack.cells[i].id;
      lost in Live(w) && lost !in Live(CancelDrag(w))
  {
    var cells := w.phase.stack.cells;
    var last := cells[|cells| - 1];
    var r := CancelDrag(w);
    var lost := cells[i].id;
    assert lost in IdSet(cells);
    RestoreAllFrom(w.grid, cells);
    RestoreAllFrame(w.grid, cells);
    assert r.grid == RestoreAll(w.grid, cells);
    assert last.(pos := last.pos) == last;
    assert r.grid.slots[last.pos] == last;
    forall k | k in r.grid.slots ensures r.grid.slots[k].id != lost {
      if k in w.grid.slots && r.grid.slots[k] == w.grid.slots[k] {
        assert r.grid.slots[k].id in Ids(w.grid);
      } else if k != last.pos {
        var m :| 0 <= m < |cells| && cells[m].pos == k && r.grid.slots[k] == cells[m];
        assert m != i;
      }
    }
    assert Held(r) == [];
  }
}

=== FILE: optional.dfy ===
/** A nullable reference: the model's stand-in for C# `null`. */
module Optional {

  datatype Option<+T> = None | Some(value: T)
}

=== FILE: stack.dfy ===
/**
 The drag session (Stack): an ordered sequence of held cells gated by the
 colour of the first one, a world position that trails the pointer, and the
 retirement schedule played when the session merges.
 */
module Stacks {
  import opened Optional
  import opened Geometry
  import opened Cells

  /** cells, targetColor, transform.position and moveSpeed of one Stack object. */
  datatype Stack = Stack(cells: seq<Cell>, target: ColorRef, position: Vec3, speed: real)

  /** A freshly instantiated stack before Initialize. */
  const Blank: Stack := Stack([], None, Origin, 0.0)

  /** Every held cell has the target colour, unless the target colour itself is null. */
  ghost predicate SameColour(s: Stack) {
    s.target.Some? ==> forall i :: 0 <= i < |s.cells| ==> s.cells[i].color == s.target
  }

  /** CanAddCell */
  function CanAddCell(s: Stack, cell: Option<Cell>): bool {
    if cell.None? then false
    else if s.target.None? then true
    else cell.value.color == s.target
  }

  /** AddCell: a null cell or one whose colour differs from a non-null target is turned away; anything else is appended. */
  function AddCell(s: Stack, cell: Option<Cell>): (r: Stack)
    ensures r.target == s.target && r.position == s.position && r.speed == s.speed
    ensures r.cells == s.cells || (cell.Some? && r.cells == s.cells + [cell.value])
    ensures |r.cells| == |s.cells| + 1 <==> CanAddCell(s, cell)
    ensures |r.cells| == |s.cells| <==> !CanAddCell(s, cell)
    ensures SameColour(s) ==> SameColour(r)
  {
    if cell.None? then s
    else if s.target.Some? && cell.value.color != s.target then s
    else s.(cells := s.cells + [cell.value])
  }

  /** CanAddCell answers exactly whether AddCell would take the cell, and an accepted cell lands on top. */
  lemma CanAddAgreesWithAdd(s: Stack, cell: Option<Cell>)
    ensures CanAddCell(s, cell) <==> AddCell(s, cell).cells != s.cells
    ensures CanAddCell(s, cell) ==>
              |AddCell(s, cell).cells| - 1 == |s.cells| && AddCell(s, cell).cells[|s.cells|] == cell.value
    ensures !CanAddCell(s, cell) ==> AddCell(s, cell) == s
  {
  }

  /** The newest cell is in stacking slot Count-1: it comes last, just above the cells already held. */
  lemma NewestSlot(s: Stack, c: Cell)
    requires CanAddCell(s, Some(c))
    ensures var r := AddCell(s, Some(c));
      |r.cells| - 1 == |s.cells| && r.cells[|r.cells| - 1] == c && r.cells[..|s.cells|] == s.cells
  {
  }

  /**
   Initialize: a null first cell changes nothing; otherwise the stack holds
   exactly that cell, takes its colour as target and starts at its position.
   */
  function Initialize(s: Stack, first: Option<Cell>, at: Vec3, speed: real): (r: Stack)
    ensures first.None? ==> r == s
    ensures first.Some? ==> r.cells == [first.value] && r.target == first.value.color
    ensures first.Some? ==> r.position == at && r.speed == speed
    ensures first.Some? ==> SameColour(r)
  {
    if first.None? then s
    else AddCell(Stack([], first.value.color, at, speed), first)
  }

  /** Clear: forget the held cells and the target colour; the cells are not handed back anywhere. */
  function Clear(s: Stack): (r: Stack)
    ensures r.cells == [] && r.target.None?
    ensures forall c :: CanAddCell(r, Some(c))
  {
    s.(cells := [], target := None)
  }

  /** After Clear the next non-null cell is accepted whatever its colour, and only null is refused. */
  lemma ClearAcceptsAnyCell(s: Stack, cell: Option<Cell>)
    ensures CanAddCell(Clear(s), cell) <==> cell.Some?
    ensures cell.Some? ==> AddCell(Clear(s), cell).cells == [cell.value]
  {
  }

  /**
   UpdatePosition: smooth the stack towards `target` by Lerp with
   t = moveSpeed * deltaTime. The new position lies on the segment between the
   old position and the target and is no farther from the target on any axis.
   */
  function UpdatePosition(s: Stack, target: Vec3, dt: real): (r: Stack)
    ensures r.cells == s.cells && r.target == s.target && r.speed == s.speed
    ensures Approaches(r.position, s.position, target)
    ensures s.speed * dt >= 1.0 ==> r.position == target
    ensures s.speed * dt <= 0.0 ==> r.position == s.position
  {
    LerpApproaches(s.position, target, s.speed * dt);
    s.(position := Lerp(s.position, target, s.speed * dt))
  }

  // ----- merge

  /** Gap between consecutive retirements, in seconds (delayBetweenCells). */
  const RetireGap: real := 0.081

  /** Observable steps of PlayMergeAnimation; durations and easing are left out. */
  datatype MergeStep =
    | Colorize(cell: Cell)               // switch to the merged material
    | Settle                             // the 0.5 s pause
    | Retire(cell: Cell, offset: real)   // shrink, rotate and deactivate, starting `offset` seconds into the sequence
    | Complete                           // onComplete, then the stack is destroyed

  /** The retirements, newest cell first: cells[i] starts at (Count-1-i) * RetireGap. */
  function Retirements(cells: seq<Cell>): seq<MergeStep> {
    seq(|cells|, j requires 0 <= j < |cells| => Retire(cells[|cells| - 1 - j], j as real * RetireGap))
  }

  /** Every cell switches to its merged look, newest first. */
  function Colorizations(cells: seq<Cell>): seq<MergeStep> {
    seq(|cells|, j requires 0 <= j < |cells| => Colorize(cells[|cells| - 1 - j]))
  }

  /** PlayMergeAnimation: on an empty stack onComplete fires at once; otherwise after the whole sequence. */
  function MergeSchedule(s: Stack): seq<MergeStep> {
    if |s.cells| == 0 then [Complete]
    else Colorizations(s.cells) + [Settle] + Retirements(s.cells) + [Complete]
  }

  /** A reference reversal, independent of the merge schedule. */
  function Reverse(s: seq<Cell>): seq<Cell> {
    if |s| == 0 then [] else Reverse(s[1..]) + [s[0]]
  }

  lemma {:induction false} ReverseIndex(s: seq<Cell>)
    ensures |Reverse(s)| == |s|
    ensures forall j :: 0 <= j < |s| ==> Reverse(s)[j] == s[|s| - 1 - j]
    decreases |s|
  {
    if |s| > 0 {
      ReverseIndex(s[1..]);
    }
  }

  /** The cells retired by a merge, in the order they start. */
  function RetiredCells(steps: seq<MergeStep>): seq<Cell> {
    if |steps| == 0 then []
    else (if steps[0].Retire? then [steps[0].cell] else []) + RetiredCells(steps[1..])
  }

  /** How many times onComplete fires in a schedule. */
  function Completions(steps: seq<MergeStep>): nat {
    if |steps| == 0 then 0 else (if steps[0].Complete? then 1 else 0) + Completions(steps[1..])
  }

  lemma {:induction false} RetiredCellsAppend(a: seq<MergeStep>, b: seq<MergeStep>)
    ensures RetiredCells(a + b) == RetiredCells(a) + RetiredCells(b)
    ensures Completions(a + b) == Completions(a) + Completions(b)
    decreases |a|
  {
    if |a| > 0 {
      assert (a + b)[0] == a[0];
      assert (a + b)[1..] == a[1..] + b;
      RetiredCellsAppend(a[1..], b);
    } else {
      assert a + b == b;
    }
  }

  lemma {:induction false} RetirementsRetire(cells: seq<Cell>)
    ensures RetiredCells(Retirements(cells)) == Reverse(cells)
    ensures Completions(Retirements(cells)) == 0
    decreases |cells|
  {
    ReverseIndex(cells);
    if |cells| > 0 {
      var rest := cells[..|cells| - 1];
      var top := cells[|cells| - 1];
      assert Retirements(cells) == [Retire(top, 0.0)] + Shifted(rest);
      ShiftedRetires(rest);
      RetirementsRetire(rest);
      RetiredCellsAppend([Retire(top, 0.0)], Shifted(rest));
      assert RetiredCells([Retire(top, 0.0)]) == [top];
      ReverseIndex(rest);
      assert Reverse(cells) == [top] + Reverse(rest);
    }
  }

  /** The retirements of `cells` each one gap later: those of a stack with one more cell on top. */
  function Shifted(cells: seq<Cell>): seq<MergeStep> {
    seq(|cells|, j requires 0 <= j < |cells| => Retire(cells[|cells| - 1 - j], (j + 1) as real * RetireGap))
  }

  lemma {:induction false} ShiftedRetires(cells: seq<Cell>)
    ensures RetiredCells(Shifted(cells)) == RetiredCells(Retirements(cells))
    ensures Completions(Shifted(cells)) == 0
    decreases |cells|
  {
    if |cells| > 0 {
      var a := Shifted(cells);
      var b := Retirements(cells);
      RetiredCellsSameCells(a, b);
    }
  }

  lemma {:induction false} RetiredCellsSameCells(a: seq<MergeStep>, b: seq<MergeStep>)
    requires |a| == |b|
    requires forall j :: 0 <= j < |a| ==> a[j].Retire? && b[j].Retire? && a[j].cell == b[j].cell
    ensures RetiredCells(a) == RetiredCells(b)
    ensures Completions(a) == 0
    decreases |a|
  {
    if |a| > 0 {
      RetiredCellsSameCells(a[1..], b[1..]);
    }
  }

  lemma {:induction false} ColorizationsRetireNothing(cells: seq<Cell>)
    ensures RetiredCells(Colorizations(cells)) == []
    ensures Completions(Colorizations(cells)) == 0
    decreases |cells|
  {
    if |cells| > 0 {
      var c := Colorizations(cells);
      assert c[1..] == Colorizations(cells[..|cells| - 1]) by {
        ColorizationsTail(cells);
      }
      ColorizationsRetireNothing(cells[..|cells| - 1]);
    }
  }

  lemma ColorizationsTail(cells: seq<Cell>)
    requires |cells| > 0
    ensures Colorizations(cells)[1..] == Colorizations(cells[..|cells| - 1])
  {
  }

  /**
   The retirement timing of `cells`: offsets strictly increase, the newest
   cell starts at 0, each next one a fixed gap later, so cells[i] starts at
   (Count-1-i) * RetireGap.
   */
  ghost predicate Staggered(cells: seq<Cell>, r: seq<MergeStep>) {
    && |r| == |cells|
    && (forall i :: 0 <= i < |r| ==> r[i].Retire?)
    && (forall i, j :: 0 <= i < j < |r| ==> r[i].offset < r[j].offset)
    && (|r| > 0 ==> r[0].offset == 0.0)
    && (forall j :: 0 < j < |r| ==> r[j].offset == r[j - 1].offset + RetireGap)
    && (forall i :: 0 <= i < |cells| ==> r[|cells| - 1 - i] == Retire(cells[i], (|cells| - 1 - i) as real * RetireGap))
  }

  /** The retirements follow the staggered timing. */
  lemma RetirementOffsets(cells: seq<Cell>)
    ensures Staggered(cells, Retirements(cells))
  {
    var r := Retirements(cells);
    forall j | 0 < j < |r| ensures r[j].offset == r[j - 1].offset + RetireGap {
      assert j as real * RetireGap == (j - 1) as real * RetireGap + RetireGap;
    }
    forall i | 0 <= i < |cells|
      ensures r[|cells| - 1 - i] == Retire(cells[i], (|cells| - 1 - i) as real * RetireGap)
    {
      assert cells[|cells| - 1 - (|cells| - 1 - i)] == cells[i];
    }
  }

  /**
   The merge retires the cells in reverse insertion order, the newest at once
   and each later one a fixed gap after the previous one (cells[i] at
   (Count-1-i) * RetireGap), and onComplete fires exactly once, as the
   very last step, whether or not the stack is empty.
   */
  lemma MergeOrder(s: Stack)
    ensures RetiredCells(MergeSchedule(s)) == Reverse(s.cells)
    ensures Completions(MergeSchedule(s)) == 1
    ensures MergeSchedule(s)[|MergeSchedule(s)| - 1] == Complete
    ensures |s.cells| == 0 ==> MergeSchedule(s) == [Complete]
    ensures Staggered(s.cells, Retirements(s.cells))
  {
    ScheduleShape(s);
    RetirementOffsets(s.cells);
  }

  /** The order half of MergeOrder: who retires, and when onComplete fires. */
  lemma ScheduleShape(s: Stack)
    ensures RetiredCells(MergeSchedule(s)) == Reverse(s.cells)
    ensures Completions(MergeSchedule(s)) == 1
    ensures MergeSchedule(s)[|MergeSchedule(s)| - 1] == Complete
    ensures |s.cells| == 0 ==> MergeSchedule(s) == [Complete]
  {
    if |s.cells| > 0 {
      var c := Colorizations(s.cells);
      var r := Retirements(s.cells);
      RetiredCellsAppend(c + [Settle] + r, [Complete]);
      RetiredCellsAppend(c + [Settle], r);
      RetiredCellsAppend(c, [Settle]);
      ColorizationsRetireNothing(s.cells);
      RetirementsRetire(s.cells);
      assert RetiredCells([Settle]) == [] && Completions([Settle]) == 0;
      assert RetiredCells([Complete]) == [] && Completions([Complete]) == 1;
    } else {
      assert Reverse(s.cells) == [];
    }
  }
}
